=== FILE: README.md ===
# MQTT side panel: topic sessions, routing and the connection supervisor

A Dafny model of the core of a browser side panel for MQTT and WebSocket. It covers
four parts of the panel:

- **The topic-filter matcher** `matchTopic`.
  - `topic_match.dfy` holds the matcher: a recursive definition over `/`-split
    levels, and the source's index loop as a method proved equal to it.
  - `topic_match_cases.dfy` holds the expected-result table of the matcher's test
    script, as lemmas.
- **Topic sessions** (`topic_session.dfy`). A `TopicSession` is a class with its own
  state:
  - a bounded log buffer;
  - pause, subscribe and unread state;
  - a case-insensitive filtered view.
- **The session registry** (`topic_manager.dfy`). A `TopicManager` is a class over:
  - a map from id to session that remembers insertion order;
  - the tab order;
  - the active id;
  - a round-robin colour cursor over six palette entries.

  Its whole state is the value `Registry`. Each method is proved to move it to the
  state given by a function of the old one (`Created`, `Deleted`, `Activated`,
  `Restored`). The invariants those functions keep are proved as lemmas.
- **The router** (`topic_router.dfy`). A `TopicRouter` sends an inbound message to
  every session whose filter matches. Unread counters go up on every such session
  except the active one. Outbound and system lines go to one chosen session, or to
  all sessions.
- **The connection supervisor** (`supervisor.dfy`). The side panel's module
  variables are the class `ConnectionSupervisor`, whose state is the value `Panel`.
  - `Step` gives the effect of every user action and transport event.
  - Every event keeps `Healthy`: one idle interval at most, no transport while
    disconnected, and a history without repeats that fits its size.
  - The pure helpers are `buildUrlFromConfig`, the history update and the input
    clamps.

Session ids, socket and client objects and interval timers are naturals supplied
fresh. A socket or client is a `Handle` drawn from one counter, so an old handle is
never equal to the current one. Times are parameters. Calls into the `mqtt` library
and `WebSocket` become method outputs (`Dial`, `Outgoing`, `Subscription`, a handle
to close). Their events become methods that take the handle.

The matcher follows MQTT v3.1.1 section 4.7 with the code's own departures:

- a `#` that is not the last level still answers true when it is reached, so `a/#/b` matches `a` and `a/x`; a final `#` matching its parent (`home/#` matches `home`) is as section 4.7.1.2 asks;
- wildcards inside a level are literal characters;
- `$` topics are not treated specially.

As section 4.7.1.3 asks, `+` matches an empty level.

## Model

| member | source | states |
|---|---|---|
| Common.Without | src/sidepanel.js:441 | `filter(h => h !== text)`: the result never holds `x`, every element kept was in the input, and every element other than `x` is kept |
| Common.WithoutAppend | src/modules/TopicManager.js:298 | filtering distributes over concatenation, so the kept ids keep their relative order |
| Common.WithoutMember | src/modules/TopicManager.js:298 | an element is kept exactly when it was present and is not the one removed |
| Common.WithoutDistinct | src/modules/TopicManager.js:298 | filtering a list without repeats leaves it without repeats |
| Common.WithoutLength | src/modules/TopicManager.js:298 | removing an id that is present from a list without repeats shortens it by exactly one |
| Common.DistinctSnoc | src/modules/TopicManager.js:275-276 | appending an id not yet present keeps a list without repeats |
| TopicMatch.SplitFrom | src/modules/TopicManager.js:182-183 | the scan behind `split('/')` yields at least one level, none of which holds a `/` |
| TopicMatch.Split | src/modules/TopicManager.js:182-183 | `split('/')` yields at least one level, none of which holds a `/` |
| TopicMatch.SplitFromSingle | src/modules/TopicManager.js:182-183 | with no `/` left, the level being read is the last one |
| TopicMatch.SplitFromFirst | src/modules/TopicManager.js:182-183 | a slash-free run up to a `/` finishes the level being read, and the rest splits on its own |
| TopicMatch.JoinSplitFrom | src/modules/TopicManager.js:182-183 | joining what the scan yields gives back the level read so far followed by the input |
| TopicMatch.LevelMatches | src/modules/TopicManager.js:205-212 | a level is accepted when the filter level is `+` or equals it |
| TopicMatch.MatchLevels | src/modules/TopicManager.js:185-216 | without a `#` in the filter, a match needs as many levels as the topic |
| TopicMatch.MatchTopic | src/modules/TopicManager.js:172-217 | a match needs a non-empty filter and topic; a non-empty filter matches itself |
| TopicMatch.PrefixMatchesTail | src/modules/TopicManager.js:185-212 | a prefix match one level longer is the first level's match followed by a prefix match of the rests |
| TopicMatch.SplitJoin | src/modules/TopicManager.js:182-183 | `split('/')` of the `/`-join of slash-free levels gives back those levels |
| TopicMatch.JoinSplit | src/modules/TopicManager.js:182-183 | joining the levels of a string gives the string back, so splitting loses nothing |
| TopicMatch.SplitInjective | src/modules/TopicManager.js:182-183 | two strings with the same levels are equal |
| TopicMatch.SplitSingle | src/modules/TopicManager.js:182-183 | a string without `/` is a single level |
| TopicMatch.SplitFirst | src/modules/TopicManager.js:182-183 | a slash-free first level followed by `/` splits off as the first level |
| TopicMatch.MatchTopicScan | src/modules/TopicManager.js:172-217 | the source's index loop, with its early returns, answers exactly `MatchTopic` |
| TopicMatch.MatchLevelsIff | src/modules/TopicManager.js:185-216 | the level scan is true if and only if a `#` is reached after a matching prefix, or no `#` is reached, the level counts agree and every level is `+` or equal |
| TopicMatch.MatchLevelsReflexive | src/modules/TopicManager.js:177 | equal level lists always match |
| TopicMatch.MatchTopicIsLevelScan | src/modules/TopicManager.js:174-180 | the three early answers agree with the scan: the matcher is "both non-empty and the levels match" |
| TopicMatch.MatchTopicIff | src/modules/TopicManager.js:174-216 | the matcher's full meaning without the loop: both strings non-empty, and a `#` reached after a matching prefix or a full level-wise match of equal length |
| TopicMatch.MatchTopicBasics | src/modules/TopicManager.js:174-180 | an empty filter or topic never matches, a non-empty string matches itself, and `#` matches every non-empty topic |
| TopicMatch.HashShortCircuits | src/modules/TopicManager.js:189-195 | a `#` reached during the scan answers true however many topic levels remain |
| TopicMatch.WildcardFreeMatchesOnlyItself | src/modules/TopicManager.js:182-216 | a filter with no `+` or `#` level matches exactly the same non-empty string |
| TopicMatchCases.ExactCases | tests/topic-matching.node.test.js:43-44 | `home/temp` matches itself and not `home/humidity` |
| TopicMatchCases.SingleLevelCase | tests/topic-matching.node.test.js:47 | `home/+/temp` matches `home/living/temp` |
| TopicMatchCases.SingleLevelDepthCase | tests/topic-matching.node.test.js:48 | `home/+/temp` does not match `home/living/room/temp` |
| TopicMatchCases.LeadingSingleLevelCase | tests/topic-matching.node.test.js:49 | `+/temp` matches `home/temp` |
| TopicMatchCases.MultiLevelCases | tests/topic-matching.node.test.js:52-55 | `home/#` matches `home/living/room/temp`, `home/temp` and `home`; `#` matches `any/topic/here` |
| TopicMatchCases.EmptyCases | tests/topic-matching.node.test.js:58-59 | an empty filter or an empty topic gives false |
| TopicMatchCases.EmptyLevelCase | src/modules/TopicManager.js:205-207 | `a/+` matches `a/`: `+` accepts an empty level |
| TopicMatchCases.InnerHashCase | src/modules/TopicManager.js:189-195 | `a/#/b` matches `a`: a `#` that is not last still answers true |
| TopicMatchCases.EmbeddedWildcardCases | src/modules/TopicManager.js:210-212 | `home/te#` does not match `home/temp` and `a+` does not match `ab`: wildcards inside a level are literal |
| TopicMatchCases.DollarTopicCases | src/modules/TopicManager.js:180 | `#` and `+/uptime` match `$SYS/uptime`: no special case for `$` topics |
| Sessions.Overlay | src/modules/TopicManager.js:268-273 | `{...base, ...options}`: no options leaves the base; an empty base gives the options (the per-field result for colours is `Manager.CreatedSettings`) |
| Sessions.Normalized | src/modules/TopicManager.js:46-68 | the constructor's defaults give well-formed settings whenever the clock is non-zero, and a missing display name falls back to the topic |
| Sessions.ConfigRoundTrip | src/modules/TopicManager.js:135-158 | building a session from `toConfig()` restores every setting, whatever fresh id and time the rebuild gets |
| Sessions.FlagsIgnoredOnRebuild | src/modules/TopicManager.js:156-158 | `fromConfig` ignores the saved `isPaused`, `autoScroll` and `jsonFormat` |
| Sessions.SliceFrom | src/modules/TopicManager.js:89 | `slice(start)` returns a suffix: the last `-start` elements for a negative start, everything from `start` otherwise, clipped to the input |
| Sessions.KeepNewestAsWritten | src/modules/TopicManager.js:88-90 | the trim as written returns a suffix of the buffer |
| Sessions.KeepNewestAsWrittenZeroBound | src/modules/TopicManager.js:88-90 | with `maxLogs` 0 the trim as written keeps a line, because `slice(-0)` is `slice(0)` |
| Sessions.KeepNewest | src/modules/TopicManager.js:88-90 | the corrected trim keeps exactly the newest `min(length, max)` lines, none when the bound is not positive |
| Sessions.KeepNewestAgrees | src/modules/TopicManager.js:88-90 | for every positive bound the trim as written and the corrected trim agree |
| Sessions.KeepNewestKeepsLast | src/modules/TopicManager.js:81-90 | the line just appended survives the trim as the newest line when the bound is positive |
| Sessions.TrimDropsOldest | src/modules/TopicManager.js:87-90 | trimming only drops the oldest lines: what remains is a suffix of the old buffer plus the new line |
| Sessions.LowerChar | src/modules/TopicManager.js:125 | lower-casing changes exactly the upper-case ASCII letters, to lower-case ones |
| Sessions.Lower | src/modules/TopicManager.js:125-127 | `toLowerCase()` keeps the length and lower-cases each character |
| Sessions.LowerIdempotent | src/modules/TopicManager.js:125-127 | lower-casing twice is lower-casing once |
| Sessions.OccursShift | src/modules/TopicManager.js:127 | dropping the first character of the message moves every occurrence of the filter one place left |
| Sessions.ContainsIff | src/modules/TopicManager.js:127 | `includes` holds exactly when the filter text starts at some position of the message |
| Sessions.Passes | src/modules/TopicManager.js:125-127 | every line passes an empty filter |
| Sessions.FilterLogs | src/modules/TopicManager.js:126-128 | the filter keeps only passing lines from the buffer, and keeps every passing line |
| Sessions.FilterLogsAppend | src/modules/TopicManager.js:126-128 | filtering distributes over concatenation, so the kept lines keep their order |
| Sessions.FilterLogsIdempotent | src/modules/TopicManager.js:126-128 | filtering twice by the same text is filtering once |
| Sessions.FilteredView | src/modules/TopicManager.js:122-129 | an empty filter returns the buffer itself; otherwise the passing lines |
| Sessions.PassesIgnoresCase | src/modules/TopicManager.js:125-127 | whether a line passes does not depend on the case of the message or of the filter |
| Sessions.Logged | src/modules/TopicManager.js:78-94 | `addLog` keeps a bounded buffer bounded, counts one more line unless paused, and leaves the unread counter and the flags alone |
| Sessions.LoggedEffect | src/modules/TopicManager.js:78-94 | `addLog` on a paused session changes nothing. Otherwise the stamped entry is the newest line when the bound allows one, the buffer is within its bound, one more line is counted, the time is recorded, and no flag, filter or unread counter moves |
| Sessions.LoggedBounded | src/modules/TopicManager.js:87-90 | `addLog` keeps the buffer within its bound |
| Sessions.TopicSession.constructor | src/modules/TopicManager.js:45-72 | settings follow the defaulting rules; the state is the fresh one: no lines, unsubscribed, running, counters zero, no filter |
| Sessions.TopicSession.ToConfig | src/modules/TopicManager.js:135-149 | the saved form rebuilds the same settings and carries the three view flags |
| Sessions.TopicSession.GetFilteredLogs | src/modules/TopicManager.js:122-129 | every line when the filter is empty; otherwise only lines containing the filter ignoring case, and all of them |
| Sessions.TopicSession.AddLog | src/modules/TopicManager.js:78-94 | the state becomes `Logged` of the old state; `LoggedEffect` says what that means |
| Sessions.TopicSession.ClearLogs | src/modules/TopicManager.js:99-102 | the buffer and the unread counter become empty and zero; nothing else changes |
| Sessions.TopicSession.IncrementUnread | src/modules/TopicManager.js:107-109 | the unread counter goes up by one; nothing else changes |
| Sessions.TopicSession.ResetUnread | src/modules/TopicManager.js:114-116 | the unread counter becomes zero; nothing else changes |
| Manager.Lookup | src/modules/TopicManager.js:341-345 | `ids.map(get).filter(Boolean)`: at most one session per id, all from the map, one per id in order when every id is present |
| Manager.LookupSnoc | src/modules/TopicManager.js:341-345 | looking up one more present id appends its session |
| Manager.FirstWithTopic | src/modules/TopicManager.js:352-359 | the chosen id has exactly that topic; no id is chosen if and only if no session has it |
| Manager.FirstWithTopicIsFirst | src/modules/TopicManager.js:352-359 | no session earlier in map order has that topic |
| Manager.FirstAt | src/modules/TopicManager.js:353-356 | the first position whose topic is equal is the one chosen |
| Manager.MatchingIds | src/modules/TopicManager.js:366-374 | every matched id is scanned and matches, and every scanned id that matches is matched |
| Manager.MatchingIdsMember | src/modules/TopicManager.js:366-374 | an id is matched if and only if it is scanned and its filter matches |
| Manager.MatchingIdsSnoc | src/modules/TopicManager.js:368-372 | scanning one more id appends it exactly when it matches, so matches keep map order |
| Manager.MatchingIdsDistinct | src/modules/TopicManager.js:366-374 | no session is matched twice |
| Manager.Dedup | src/modules/TopicManager.js:410-413 | the key order a `Map` keeps: each id once, the same ids as fed |
| Manager.DedupOfDistinct | src/modules/TopicManager.js:410-413 | ids without repeats keep their order as map keys |
| Manager.LastIndex | src/modules/TopicManager.js:412 | the entry a `Map` keeps for a repeated id is the last one set |
| Manager.ConfigsOf | src/modules/TopicManager.js:395 | one saved configuration per session, in order, each its `toConfig()` |
| Manager.WellKeyedSize | src/modules/TopicManager.js:279 | a well-keyed registry has as many sessions as listed ids, so `sessions.size` counts them |
| Manager.DistinctCardinality | src/modules/TopicManager.js:279 | a map keyed by exactly the ids of a list without repeats has as many entries as the list |
| Manager.Put | src/modules/TopicManager.js:275 | `sessions.set`: the id now holds the session, every other id keeps its session, the key count grows only for a new id, and nothing else moves |
| Manager.Added | src/modules/TopicManager.js:275-281 | the session is stored and its id ends the tab order; it becomes active when it is the first one, otherwise the active id stays when the map holds several |
| Manager.Created | src/modules/TopicManager.js:258-285 | the colour cursor moves on by one, the session is stored and its id ends the tab order |
| Manager.Deleted | src/modules/TopicManager.js:292-307 | the id leaves the map, every other session stays; a known id is filtered out of the key list and the tab order, which otherwise keep their order, and a deleted active id falls back to the first remaining tab or none; any other active id stays; an unknown id changes nothing |
| Manager.Activated | src/modules/TopicManager.js:313-327 | a known id becomes active and an unknown one changes nothing; the map and the tab order stay |
| Manager.PutAll | src/modules/TopicManager.js:409-414 | restoring starts from an empty tab order, no active id and the cursor at 0, and holds no more keys than sessions given |
| Manager.Restored | src/modules/TopicManager.js:405-423 | the map holds exactly the rebuilt ids; the tab order is the saved one; the active id is the saved one when given, else the first saved tab, else none; the cursor is the number of sessions |
| Manager.PutWellKeyed | src/modules/TopicManager.js:275 | `sessions.set` of a valid session keeps the registry well keyed |
| Manager.AddedWellKeyed | src/modules/TopicManager.js:275-281 | adding a created session keeps the registry well keyed |
| Manager.CreatedOrdered | src/modules/TopicManager.js:275-281 | under a new id the tab order stays the map order with the id last, and the session becomes active exactly when it is the only one |
| Manager.CreatedDistinctTopics | src/modules/TopicManager.js:258-285 | a session whose topic no stored session has joins without a topic clash |
| Manager.DeletedWellKeyed | src/modules/TopicManager.js:297-298 | deleting keeps the registry well keyed |
| Manager.DeletedOrdered | src/modules/TopicManager.js:297-303 | deleting keeps the tab order equal to the map order, with an active session, one that exists, exactly when any remains |
| Manager.DeletedFallback | src/modules/TopicManager.js:301-303 | deleting the active session activates the second tab when it was the first, else the first tab; none when it was the only tab |
| Manager.DeleteUndoesCreate | src/modules/TopicManager.js:258-307 | deleting the session just created restores the registry, except that the colour cursor has moved |
| Manager.WithoutSnoc | src/modules/TopicManager.js:298 | filtering out the id just appended gives back the list before |
| Manager.RemoveAdded | src/modules/TopicManager.js:297 | removing the key just added gives back the map before |
| Manager.PutAllShape | src/modules/TopicManager.js:409-414 | restored sessions are keyed in first-occurrence order of their ids, each id holding the session set last under it |
| Manager.PutAllWellKeyed | src/modules/TopicManager.js:409-414 | restoring valid sessions gives a well-keyed registry |
| Manager.PutAllDistinct | src/modules/TopicManager.js:409-414 | sessions with distinct ids are restored in order, each under its own id |
| Manager.RestoreOfSaved | src/modules/TopicManager.js:393-423 | importing what a registry in its ordinary state exported restores its ids, map and tab order, active id and settings, with the cursor at the session count |
| Manager.ColorBase | src/modules/TopicManager.js:267-273 | the base options carry the topic and the palette entry under the cursor, modulo six |
| Manager.CreatedSettings | src/modules/TopicManager.js:267-273 | a created session takes the palette entry under the cursor when the options give no colour, the given colour when it is non-empty, and the first palette entry for an empty one, through the constructor's fallback at lines 50-51; likewise for the background; the topic and a fresh id unless overridden |
| Manager.Rebuild | src/modules/TopicManager.js:410-411 | one fresh session per saved configuration, in order, each built by the constructor's rules |
| Manager.TopicManager.constructor | src/modules/TopicManager.js:225-240 | the empty registry, which is well keyed and ordered |
| Manager.TopicManager.NextColor | src/modules/TopicManager.js:246-250 | returns `topicColors[cursor % 6]` and advances the cursor by one; nothing else changes |
| Manager.TopicManager.FindByTopic | src/modules/TopicManager.js:352-359 | the first session in map order with exactly this topic, or none if and only if there is none |
| Manager.TopicManager.ActiveSession | src/modules/TopicManager.js:333-335 | the session under the active id when both exist, else none |
| Manager.TopicManager.AllSessions | src/modules/TopicManager.js:341-345 | sessions from the map in tab order; in the ordinary state exactly one per session, in map order |
| Manager.TopicManager.FindMatchingSessions | src/modules/TopicManager.js:366-374 | the sessions whose filter matches, in map order |
| Manager.TopicManager.CreateSession | src/modules/TopicManager.js:258-285 | an existing exact topic returns that session and changes nothing; otherwise a fresh session with the next colour under the options, the cursor advanced, and the registry `Created` of it |
| Manager.TopicManager.Add | src/modules/TopicManager.js:275-281 | the registry becomes `Added` of the session and stays well keyed |
| Manager.TopicManager.DeleteSession | src/modules/TopicManager.js:292-307 | answers whether the id was known; the registry becomes `Deleted` of the id, so the remaining tabs keep their order and a deleted active id falls back to the first remaining tab (`DeletedFallback`); the registry stays well keyed, and ordered when it was |
| Manager.TopicManager.SwitchToSession | src/modules/TopicManager.js:313-327 | a known id becomes active and only its unread counter returns to zero; an unknown id changes nothing |
| Manager.TopicManager.SetSubscribed | src/modules/TopicManager.js:381-387 | only that session's subscribed flag changes; an unknown id changes nothing |
| Manager.TopicManager.ExportConfig | src/modules/TopicManager.js:393-399 | every session's configuration in tab order, the active id and the tab order |
| Manager.TopicManager.ImportConfig | src/modules/TopicManager.js:405-423 | one fresh session per saved configuration; the registry becomes `Restored`: saved tab order, saved active id or else the first tab, cursor at the session count |
| Manager.TopicManager.AdoptSaved | src/modules/TopicManager.js:416-420 | the map is untouched; the tab order is the saved one, the active id the saved one or else the first tab, and the cursor the session count |
| Manager.TopicManager.StoreAll | src/modules/TopicManager.js:409-414 | setting each rebuilt session in turn gives the map of `PutAll`; nothing else changes |
| Manager.TopicManager.Clear | src/modules/TopicManager.js:438-444 | back to the empty registry: no sessions, no tabs, no active id, cursor 0 |
| Manager.TopicManager.SaveAndRestore | src/modules/TopicManager.js:393-423 | export then import restores the ids, map and tab order, active id and settings |
| Manager.TopicManager.ClearThenCreate | src/modules/TopicManager.js:438-444 | after `clear()` the next session gets the first palette colour and is the only, active session |
| Router.RxEntry | src/modules/TopicRouter.js:37-43 | an `rx` line carrying the payload and the message topic |
| Router.TxEntry | src/modules/TopicRouter.js:71-76 | a `tx` line naming the topic, whose message ends with the sent text under a seven-character header |
| Router.SysEntry | src/modules/TopicRouter.js:95-99 | a `sys` line carrying the message and no topic |
| Router.DeliveryUnread | src/modules/TopicRouter.js:45-52 | a delivery adds one unread exactly when bumped, even on a paused session whose buffer does not change; otherwise it is `addLog` |
| Router.Delivery | src/modules/TopicRouter.js:45-52 | a delivery adds one unread exactly when bumped, counts one more line unless paused, and keeps the buffer bounded |
| Router.Deliver | src/modules/TopicRouter.js:46-51 | `addLog` then, when bumped, `incrementUnread` |
| Router.DeliverEach | src/modules/TopicRouter.js:45-52 | each listed session gets one delivery, bumped unless it is the active one; unlisted sessions are untouched |
| Router.SentTarget | src/modules/TopicRouter.js:67-87 | when a session has the topic, the first such session in map order is chosen; otherwise the active one if it exists, else none |
| Router.SystemTarget | src/modules/TopicRouter.js:94-112 | a given id is used only if known, with no fallback; without an id, the active session |
| Router.TopicRouter.constructor | src/modules/TopicRouter.js:15-20 | the router serves the given registry |
| Router.TopicRouter.RouteMessage | src/modules/TopicRouter.js:29-60 | returns the matching sessions in map order. Each matching session gets one `rx` delivery and one more unread unless active, even when paused. Other sessions and the registry are untouched, so no match changes nothing |
| Router.TopicRouter.AddSentMessage | src/modules/TopicRouter.js:67-87 | only the session with exactly the publish topic, else the active one, logs the `tx` line; no unread counter moves |
| Router.TopicRouter.AddSystemMessage | src/modules/TopicRouter.js:94-112 | only the named session, or the active one without an id, logs the `sys` line; an unknown id changes nothing |
| Router.TopicRouter.BroadcastSystemMessage | src/modules/TopicRouter.js:118-128 | every session logs the `sys` line once (subject to pause) and no unread counter moves |
| Supervisor.Scheme | src/sidepanel.js:230 | `wss` with TLS, else the protocol given, else `ws`; never empty |
| Supervisor.PathPart | src/sidepanel.js:233-234 | a non-empty path gains a leading `/` only when it lacks one; an empty path stays empty |
| Supervisor.PortPart | src/sidepanel.js:236 | `:port` exactly when a port is given |
| Supervisor.BuildUrl | src/sidepanel.js:229-238 | the URL starts with the scheme and is at least as long as scheme, `://` and host; with no port and no path it ends with the host |
| Supervisor.BuildUrlShape | src/sidepanel.js:229-238 | the URL is scheme, `://` and host, then the port part and the path part |
| Supervisor.BuildUrlSecure | src/sidepanel.js:230 | with TLS ticked the URL starts with `wss://` |
| Supervisor.PathPartIdempotent | src/sidepanel.js:234 | normalising the path twice is normalising it once |
| Supervisor.EffectiveUrl | src/sidepanel.js:350-357 | the typed URL if any, else the built one; never empty, so the "enter a URL" branch is dead |
| Supervisor.Take | src/sidepanel.js:441 | `slice(0, n)`: the first `min(length, n)` elements |
| Supervisor.UpdateHistory | src/sidepanel.js:441 | the history fits its size, the text is first when there is room, and a new text on a history with room adds exactly one entry |
| Supervisor.UpdateHistoryShape | src/sidepanel.js:441 | the text comes first when there is room; the older entries follow in order without it; the history fits its size |
| Supervisor.UpdateHistoryDistinct | src/sidepanel.js:441 | a history without repeats stays without repeats |
| Supervisor.UpdateHistoryIdempotent | src/sidepanel.js:441 | sending the same text twice leaves the history as after once |
| Supervisor.ClampIdleSeconds | src/sidepanel.js:485-486 | a parsed non-negative number is kept; anything else becomes 0 |
| Supervisor.ClampHistorySize | src/sidepanel.js:492-493 | a positive number capped at 50; anything else becomes 5; the result is always 1 to 50 |
| Supervisor.Outbound | src/sidepanel.js:416-440 | a send happens only with a non-empty text. In MQTT mode it is a publish on a connected client to a non-empty topic; otherwise a frame on an open socket while connected |
| Supervisor.Opened | src/sidepanel.js:349-380 | a transport is opened only when disconnected and the library accepts the URL, with a fresh handle and the effective URL |
| Supervisor.ClientStopped | src/sidepanel.js:86-90 | no client is held afterwards, and a held one loses its connected flag; nothing else changes |
| Supervisor.WatcherStopped | src/sidepanel.js:342-347 | no interval is held afterwards and the one held is no longer live; nothing else changes |
| Supervisor.WatcherStarted | src/sidepanel.js:330-340 | a fresh interval is held and live; every other live interval was live before and was not the one held |
| Supervisor.DisconnectedAsWritten | src/sidepanel.js:405-414 | disconnected with no socket; the client is stopped in MQTT mode only, and kept with its connected flag in WebSocket mode; the watchdog is untouched |
| Supervisor.DisconnectedFixed | src/sidepanel.js:405-414 | disconnected with no socket and no client in either mode; the watchdog and the mode are untouched |
| Supervisor.SocketClosedAsWritten | src/sidepanel.js:397-402 | disconnected with no socket and no interval, whichever socket closed; the MQTT client and history are untouched |
| Supervisor.MqttDialed | src/sidepanel.js:540-565 | a client is held exactly when the library accepts, and then it is a fresh handle; on refusal the status falls back to disconnected; the socket and the watchdog are untouched |
| Supervisor.SocketDialed | src/sidepanel.js:373-379 | on success a fresh socket is held with the status unchanged; on failure the status falls back to disconnected and no handle is spent |
| Supervisor.Step | src/sidepanel.js:349-646 | the handle counter never goes back, and the mode, the timeout and the history size change only through their own inputs |
| Supervisor.IdleFires | src/sidepanel.js:332-338 | the watchdog fires only with a timeout set, while connected and holding a socket |
| Supervisor.StartHealthy | src/sidepanel.js:72-84 | the start-up panel is healthy |
| Supervisor.ConnectHealthy | src/sidepanel.js:349-380 | `connect()` keeps the panel healthy |
| Supervisor.SendHealthy | src/sidepanel.js:416-445 | a send keeps the history without repeats and within size |
| Supervisor.HistorySizeHealthy | src/sidepanel.js:491-498 | a new history size keeps the history within size and without repeats |
| Supervisor.WatcherHealthy | src/sidepanel.js:330-347 | starting or stopping the watchdog keeps exactly one live interval at most |
| Supervisor.TransportEventHealthy | src/sidepanel.js:381-402 | every client and socket event keeps the panel healthy |
| Supervisor.UserEventHealthy | src/sidepanel.js:467-536 | every user action and input keeps the panel healthy |
| Supervisor.StepHealthy | src/sidepanel.js:349-646 | every event keeps the panel healthy |
| Supervisor.OneTimerAtMost | src/sidepanel.js:330-331 | at most one idle interval is ever live |
| Supervisor.StaleEventsIgnored | src/sidepanel.js:637-638 | connect and close events of a client that is not current, and close events of a socket that is not current, change nothing |
| Supervisor.OpenedIsFresh | src/sidepanel.js:558 | a newly opened client or socket has a handle never held before |
| Supervisor.ConnectToggles | src/sidepanel.js:360-366 | while connected or connecting `connect()` only disconnects and opens nothing; otherwise the time is refreshed and the status is connecting exactly when the library accepts |
| Supervisor.DisconnectEnds | src/sidepanel.js:405-414 | disconnect ends disconnected, with no client, no MQTT connection and no socket, without waiting for a close event, and leaves the watchdog alone |
| Supervisor.DisconnectAsWrittenKeepsClient | src/sidepanel.js:405-408 | as written, disconnecting in WebSocket mode keeps a connected MQTT client while showing disconnected |
| Supervisor.DisconnectAgreesInMqttMode | src/sidepanel.js:405-414 | in MQTT mode the source's disconnect and the corrected one agree |
| Supervisor.StaleSocketCloseAsWritten | src/sidepanel.js:397-402 | as written, the close of a replaced socket forgets the current one; the guarded handler leaves it alone |
| Supervisor.IdleNeverFiresOverMqtt | src/sidepanel.js:332 | the watchdog never fires while an MQTT client is held, nor with no timeout set |
| Supervisor.SendRecordsHistory | src/sidepanel.js:441 | after a send the text is first in the history, with no repeats, within size |
| Supervisor.ConnectionSupervisor.constructor | src/sidepanel.js:72-84 | the start-up panel, which is healthy |
| Supervisor.ConnectionSupervisor.StopMqttClient | src/sidepanel.js:86-90 | the current client, if any, is forgotten and returned to be ended; the MQTT connection flag is cleared |
| Supervisor.ConnectionSupervisor.StopIdleWatcher | src/sidepanel.js:342-347 | the live interval, if any, is cleared |
| Supervisor.ConnectionSupervisor.StartIdleWatcher | src/sidepanel.js:330-340 | the old interval is cleared before one new interval is started |
| Supervisor.ConnectionSupervisor.IdleTick | src/sidepanel.js:332-338 | asks to close the socket exactly when a timeout is set, the status is connected, a socket is held and more than the timeout has passed |
| Supervisor.ConnectionSupervisor.Connect | src/sidepanel.js:349-403 | the panel steps by the connect event and stays healthy; the transport opened is `Opened` |
| Supervisor.ConnectionSupervisor.ConnectMqtt | src/sidepanel.js:540-565 | the old client is stopped, then a fresh client is held, or the status falls back when the library refuses |
| Supervisor.ConnectionSupervisor.Disconnect | src/sidepanel.js:405-414 | the panel steps by the corrected disconnect; the client ended and the socket closed are the ones held before |
| Supervisor.ConnectionSupervisor.OnMqttConnect | src/sidepanel.js:567-590 | for the current client: connected, the watchdog restarted, and one subscribe per session in tab order with its topic and QoS; a stale client changes nothing and subscribes nothing |
| Supervisor.ConnectionSupervisor.OnSubscribeOutcome | src/sidepanel.js:578-589 | while a client is held, only that session's subscribed flag becomes the outcome |
| Supervisor.ConnectionSupervisor.OnMqttMessage | src/sidepanel.js:608-631 | while a client is held, the time is refreshed and the message is routed as `RouteMessage` says; otherwise nothing happens |
| Supervisor.ConnectionSupervisor.OnMqttClose | src/sidepanel.js:637-646 | for the current client: disconnected, client forgotten, watchdog stopped; a stale client changes nothing |
| Supervisor.ConnectionSupervisor.OnSocketOpen | src/sidepanel.js:381-386 | connected and the watchdog restarted |
| Supervisor.ConnectionSupervisor.OnSocketMessage | src/sidepanel.js:388-391 | the interaction time is refreshed |
| Supervisor.ConnectionSupervisor.OnSocketClose | src/sidepanel.js:397-402 | for the current socket: disconnected, socket forgotten, watchdog stopped; a replaced socket's close changes nothing |
| Supervisor.ConnectionSupervisor.SendMessage | src/sidepanel.js:416-445 | sends `Outbound`; after a send the time is refreshed and the history updated, else nothing changes |
| Supervisor.ConnectionSupervisor.SetIdleSeconds | src/sidepanel.js:484-489 | the timeout becomes the clamped input and the watchdog restarts |
| Supervisor.ConnectionSupervisor.SetHistorySize | src/sidepanel.js:491-498 | the size becomes the clamped input and the history is cut to it |
| Supervisor.ConnectionSupervisor.SetMode | src/sidepanel.js:531-535 | only the mode changes |

## Left out

- Generated ids are not modelled: `generateId`, `Math.random` and the random MQTT client id. Ids are naturals supplied fresh. The empty-string id, which the source treats as absent, does not arise.
- Parts of each log line are not modelled: the formatted `time` string, the per-line random id, and `routeMessage`'s `meta` spread.
- `onMessageRouted` and `onStateChange` are left out. They are callbacks into code outside the core.
- `console.warn` is left out.
- Everything on screen is left out:
  - DOM rendering: `setStatus` styling, badges, tabs, history chips, the theme and the scroll lock;
  - the panel's own log (`pushLog`, `renderLogs`);
  - `prettify`/`isJsonString`.
- Persistence in `chrome.storage` is left out: `persistState`, `loadState`, `persistConfig`, `loadConfig` and the topic storage. The panel starts from its declared defaults, so a stored history size outside 1 to 50 is not considered.
- The `mqtt` library and `WebSocket` internals are left out: the client options, the private timers cleared by `stopMqttClient`, and the `error` and `onerror` handlers, which only log.
- Real clocks and timers are not used: time is a parameter, and an interval is a handle.
- String trimming is not modelled. The URL settings and the typed URL arrive already trimmed.
- The subscribe-all, unsubscribe-all, add-topic and delete-topic buttons of the multi-topic panel are UI wiring, and the code run on selecting a tab is too.
- `currentSubscribedTopic` and the legacy single-topic subscribe are left out. They read `cfgDom.topic`, which does not exist, so they would throw. A send with an empty publish topic hits the same field. It is modelled as sending nothing and changing nothing.
- Connect's empty-URL branch is not a separate case. `EffectiveUrl` proves the URL is never empty, so that branch is dead.
- Supervisor.ConnectionSupervisor.IdleTick: the close it asks for arrives as the socket's own close event (`OnSocketClose`). The tick does not change the panel itself.
- Supervisor.Step: the disconnect inside `connect()` is the corrected one, as for `Disconnect` (see Findings).
- Two behaviours the model keeps as the code has them:
  - `disconnect()` does not stop the idle watcher;
  - `findMatchingSessions` returns matches in the map's insertion order, not the tab order.
- Sessions.TopicSession.AddLog: uses the corrected trim `KeepNewest`, which differs from `slice(-maxLogs)` only when `maxLogs` is 0 or negative (see Findings).
- Supervisor.ConnectionSupervisor.OnSocketClose: adds a check that the closing socket is the current one, which `onclose` at src/sidepanel.js:397-402 lacks (see Findings). `Supervisor.Step`'s `SocketClose` case does the same. One consequence: the close event of a socket that an explicit `disconnect()` already dropped is now ignored, so it no longer stops the idle watcher, as the unguarded handler does; this matches the MQTT path, where line 638 ignores the close of a client that is no longer current.
- Manager.TopicManager.ImportConfig: the restored tab order and active id are taken as saved, unchecked, so the ordered invariant is proved only for export followed by import (`SaveAndRestore`).
- Manager.TopicManager.CreateSession: options may override the id and the topic. Ordering is proved only for a new id (`CreatedOrdered`), and topic uniqueness only when the topic is not overridden (`CreatedDistinctTopics`).
- `toLowerCase` is modelled on ASCII letters only.

## Findings

| source | as written | input that shows it | evidently intended | confidence | as-written member | corrected member |
|---|---|---|---|---|---|---|
| src/modules/TopicManager.js:88-90 | trims with `logs.slice(-maxLogs)` | `maxLogs` 0 and one `addLog`: `slice(-0)` is `slice(0)`, so the line is kept and the buffer grows without bound | keep the newest `maxLogs` lines, none for a bound of 0 | medium, not executed | Sessions.KeepNewestAsWrittenZeroBound | Sessions.KeepNewest |
| src/sidepanel.js:397-402 | the socket `onclose` does not check which socket closed | connect and cancel socket 0, then connect socket 1; the late close of socket 0 clears socket 1 and shows disconnected while socket 1 is open | ignore a replaced socket's close, as the MQTT handlers do at lines 568 and 638 | medium, not executed | Supervisor.StaleSocketCloseAsWritten | Supervisor.ConnectionSupervisor.OnSocketClose |
| src/sidepanel.js:405-408 | `disconnect()` stops the MQTT client only when the mode is `mqtt` | connect over MQTT, switch the mode selector to WebSocket, press disconnect: the panel shows disconnected while the client stays connected and its messages are still routed | stop the client whatever the mode | medium, not executed | Supervisor.DisconnectAsWrittenKeepsClient | Supervisor.ConnectionSupervisor.Disconnect |

=== FILE: common.dfy ===
/** Small shared vocabulary: an optional value (JavaScript's `null`/`undefined`)
    and the array helpers the core relies on. */
module Common {

  /** A value that may be absent: `null`, `undefined` or a missing key. */
  datatype Option<+T> = None | Some(value: T) {
    /** `x ?? d`: the value when present, else the default. */
    function GetOr(d: T): T {
      match this
      case Some(v) => v
      case None => d
    }
  }

  /** No element occurs twice. */
  predicate Distinct<T(==)>(s: seq<T>) {
    forall i, j :: 0 <= i < j < |s| ==> s[i] != s[j]
  }

  /** Appending an element not yet present keeps a sequence free of repeats. */
  lemma DistinctSnoc<T>(s: seq<T>, x: T)
    requires Distinct(s) && x !in s
    ensures Distinct(s + [x])
  {
    forall i, j | 0 <= i < j < |s + [x]| ensures (s + [x])[i] != (s + [x])[j] {
      if j == |s| {
        assert (s + [x])[i] == s[i];
      }
    }
  }

  /** `s.filter(y => y !== x)`: every element other than `x`, in order. */
  function Without<T(==)>(s: seq<T>, x: T): (r: seq<T>)
    ensures x !in r
    ensures forall i :: 0 <= i < |r| ==> r[i] in s && r[i] != x
    ensures forall i :: 0 <= i < |s| && s[i] != x ==> s[i] in r
    ensures |r| <= |s|
    ensures x !in s ==> r == s
  {
    if s == [] then []
    else if s[0] == x then Without(s[1..], x)
    else [s[0]] + Without(s[1..], x)
  }

  /** Filtering distributes over concatenation, so the survivors keep their relative order. */
  lemma {:induction false} WithoutAppend<T>(a: seq<T>, b: seq<T>, x: T)
    ensures Without(a + b, x) == Without(a, x) + Without(b, x)
  {
    if a == [] {
      assert a + b == b;
    } else {
      assert (a + b)[1..] == a[1..] + b;
      WithoutAppend(a[1..], b, x);
    }
  }

  /** An element survives the filter exactly when it was there and is not `x`. */
  lemma WithoutMember<T>(s: seq<T>, x: T, y: T)
    ensures y in Without(s, x) <==> y in s && y != x
  {
    if y in s && y != x {
      var i :| 0 <= i < |s| && s[i] == y;
    }
  }

  /** Filtering a duplicate-free sequence leaves it duplicate-free. */
  lemma {:induction false} WithoutDistinct<T>(s: seq<T>, x: T)
    requires Distinct(s)
    ensures Distinct(Without(s, x))
  {
    if s != [] {
      assert Distinct(s[1..]) by {
        forall i, j | 0 <= i < j < |s[1..]| ensures s[1..][i] != s[1..][j] {
          assert s[1..][i] == s[i + 1] && s[1..][j] == s[j + 1];
        }
      }
      WithoutDistinct(s[1..], x);
      if s[0] != x {
        var r := Without(s[1..], x);
        assert s[0] !in s[1..];
        assert s[0] !in r;
        forall i, j | 0 <= i < j < |[s[0]] + r| ensures ([s[0]] + r)[i] != ([s[0]] + r)[j] {
          if i == 0 {
            assert ([s[0]] + r)[j] == r[j - 1];
          } else {
            assert ([s[0]] + r)[i] == r[i - 1] && ([s[0]] + r)[j] == r[j - 1];
          }
        }
      }
    }
  }

  /** Removing an element from a duplicate-free sequence that holds it shortens it by one. */
  lemma {:induction false} WithoutLength<T>(s: seq<T>, x: T)
    requires Distinct(s) && x in s
    ensures |Without(s, x)| == |s| - 1
  {
    if s[0] == x {
      assert x !in s[1..] by {
        forall i | 0 <= i < |s[1..]| ensures s[1..][i] != x {
          assert s[1..][i] == s[i + 1];
        }
      }
    } else {
      assert x in s[1..];
      assert Distinct(s[1..]) by {
        forall i, j | 0 <= i < j < |s[1..]| ensures s[1..][i] != s[1..][j] {
          assert s[1..][i] == s[i + 1] && s[1..][j] == s[j + 1];
        }
      }
      WithoutLength(s[1..], x);
    }
  }
}

=== FILE: supervisor.dfy ===
/** The connection supervisor of the side panel (src/sidepanel.js): a status machine
    over one WebSocket or one MQTT client at a time, an idle watchdog, the send
    history, and the pure helpers around them (URL building, input clamping).

    Transports and timers are opaque objects in the source; here each is a `Handle`,
    a natural drawn from one counter, so a handle from an earlier connection is
    never equal to the current one. Library calls (`new WebSocket`, `mqtt.connect`,
    `subscribe`, `publish`, `send`, `close`, `end`) are the outputs of the methods,
    and the events those objects raise are method calls taking the handle. */
module Supervisor {
  import opened Common
  import opened Sessions
  import opened Manager
  import opened Router

  // ---------------------------------------------------------------------------
  // Pure helpers
  // ---------------------------------------------------------------------------

  /** The connection settings form, each text field already trimmed. */
  datatype UrlConfig = UrlConfig(ssl: bool, protocol: string, host: string, port: string, path: string)

  /** The scheme: `wss` when TLS is ticked, else the chosen protocol, else `ws`. */
  function Scheme(c: UrlConfig): (s: string)
    ensures s != ""
    ensures c.ssl ==> s == "wss"
    ensures !c.ssl && c.protocol != "" ==> s == c.protocol
    ensures !c.ssl && c.protocol == "" ==> s == "ws"
  {
    if c.ssl then "wss" else if c.protocol != "" then c.protocol else "ws"
  }

  /** The path with a leading `/` added when it is non-empty and lacks one. */
  function PathPart(path: string): (r: string)
    ensures r == "" <==> path == ""
    ensures r != "" ==> r[0] == '/'
    ensures path != "" && path[0] == '/' ==> r == path
    ensures path != "" && path[0] != '/' ==> r[1..] == path
  {
    if path != "" && path[0] != '/' then "/" + path else path
  }

  /** `:port` when a port is given, else nothing. */
  function PortPart(port: string): (r: string)
    ensures r == "" <==> port == ""
    ensures r != "" ==> r[0] == ':' && r[1..] == port
  {
    if port != "" then ":" + port else ""
  }

  /** `buildUrlFromConfig()`. */
  function BuildUrl(c: UrlConfig): (u: string)
    ensures |Scheme(c)| + 3 + |c.host| <= |u| && u[..|Scheme(c)|] == Scheme(c)
    ensures c.port == "" && c.path == "" ==> u[|u| - |c.host|..] == c.host
  {
    Scheme(c) + "://" + c.host + PortPart(c.port) + PathPart(c.path)
  }

  /** A built URL is the scheme, `://` and the host, followed by the port part and
      the path part, so it is never empty. */
  lemma BuildUrlShape(c: UrlConfig)
    ensures var head := Scheme(c) + "://" + c.host;
            |head| <= |BuildUrl(c)| && BuildUrl(c)[..|head|] == head
            && BuildUrl(c)[|head|..] == PortPart(c.port) + PathPart(c.path)
  {
    var head := Scheme(c) + "://" + c.host;
    var tail := PortPart(c.port) + PathPart(c.path);
    assert BuildUrl(c) == head + tail;
  }

  /** With TLS ticked the URL starts with `wss://`, whatever protocol is chosen. */
  lemma BuildUrlSecure(c: UrlConfig)
    requires c.ssl
    ensures BuildUrl(c)[..6] == "wss://"
  {
    var rest := c.host + PortPart(c.port) + PathPart(c.path);
    assert BuildUrl(c) == "wss://" + rest;
  }

  /** Normalising the path twice is the same as once. */
  lemma PathPartIdempotent(path: string)
    ensures PathPart(PathPart(path)) == PathPart(path)
  {
  }

  /** `connect()` uses the typed URL if any, else the built one; either way the URL is
      never empty, so the "please enter a URL" branch of `connect` cannot be taken. */
  function EffectiveUrl(manualUrl: string, c: UrlConfig): (url: string)
    ensures url != ""
    ensures manualUrl != "" ==> url == manualUrl
    ensures manualUrl == "" ==> url == BuildUrl(c)
  {
    BuildUrlShape(c);
    if manualUrl != "" then manualUrl else BuildUrl(c)
  }

  /** The first `n` elements, or all of them when there are fewer: `s.slice(0, n)`. */
  function Take<T>(s: seq<T>, n: nat): (r: seq<T>)
    ensures |r| == if |s| <= n then |s| else n
    ensures r == s[..|r|]
  {
    if |s| <= n then s else s[..n]
  }

  /** The history after sending `text` with room for `size` entries. */
  function UpdateHistory(history: seq<string>, text: string, size: nat): (h: seq<string>)
    ensures |h| <= size
    ensures size > 0 ==> |h| > 0 && h[0] == text
    ensures text !in history && |history| < size ==> |h| == |history| + 1
  {
    Take([text] + Without(history, text), size)
  }

  /** After a send the text is the newest entry (when there is room for any), the
      history fits its size, every entry was sent before or is the text, and the
      older entries keep their order. */
  lemma UpdateHistoryShape(history: seq<string>, text: string, size: nat)
    ensures var h := UpdateHistory(history, text, size);
            |h| <= size
            && (size > 0 ==> h[0] == text && h[1..] == Take(Without(history, text), size - 1))
            && forall i :: 0 <= i < |h| ==> h[i] == text || h[i] in history
  {
    var w := Without(history, text);
    var h := UpdateHistory(history, text, size);
    if size > 0 {
      assert h == [text] + Take(w, size - 1);
    }
    forall i | 0 <= i < |h| ensures h[i] == text || h[i] in history {
      if i > 0 {
        assert h[i] == w[i - 1];
      }
    }
  }

  /** A history without repeats stays without repeats. */
  lemma UpdateHistoryDistinct(history: seq<string>, text: string, size: nat)
    requires Distinct(history)
    ensures Distinct(UpdateHistory(history, text, size))
  {
    var w := Without(history, text);
    WithoutDistinct(history, text);
    var full := [text] + w;
    assert Distinct(full) by {
      forall i, j | 0 <= i < j < |full| ensures full[i] != full[j] {
        if i == 0 {
          assert full[j] == w[j - 1];
        } else {
          assert full[i] == w[i - 1] && full[j] == w[j - 1];
        }
      }
    }
    var h := UpdateHistory(history, text, size);
    forall i, j | 0 <= i < j < |h| ensures h[i] != h[j] {
      assert h[i] == full[i] && h[j] == full[j];
    }
  }

  /** Sending the same text twice in a row leaves the history as after the first. */
  lemma UpdateHistoryIdempotent(history: seq<string>, text: string, size: nat)
    ensures UpdateHistory(UpdateHistory(history, text, size), text, size) == UpdateHistory(history, text, size)
  {
    var h := UpdateHistory(history, text, size);
    if size > 0 {
      var w := Without(history, text);
      var rest := Take(w, size - 1);
      assert h == [text] + rest;
      assert text !in rest;
      assert Without(h, text) == rest by {
        assert h[1..] == rest;
      }
    }
  }

  /** The idle-timeout input: the parsed number when it is a number and not negative,
      else 0 (`parseInt` yielding `NaN` is `None`). */
  function ClampIdleSeconds(parsed: Option<int>): (n: nat)
    ensures parsed.Some? && parsed.value >= 0 ==> n == parsed.value
    ensures parsed.None? || parsed.value < 0 ==> n == 0
  {
    if parsed.Some? && parsed.value >= 0 then parsed.value else 0
  }

  /** The history-size input: the parsed number capped at 50 when it is positive, else
      the default 5. */
  function ClampHistorySize(parsed: Option<int>): (n: nat)
    ensures 1 <= n <= 50
    ensures parsed.Some? && 0 < parsed.value <= 50 ==> n == parsed.value
    ensures parsed.Some? && parsed.value > 50 ==> n == 50
    ensures parsed.None? || parsed.value <= 0 ==> n == 5
  {
    if parsed.Some? && parsed.value > 0 then (if parsed.value < 50 then parsed.value else 50) else 5
  }

  // ---------------------------------------------------------------------------
  // The status machine, as values
  // ---------------------------------------------------------------------------

  datatype Status = Disconnected | Connecting | Connected

  /** The transport chosen in the settings: `mqtt`, or anything else, which means a
      plain WebSocket. */
  datatype Mode = Mqtt | WebSocket

  /** The identity of a socket, an MQTT client or an interval timer. */
  type Handle = nat

  /** The module-level variables of the panel that the machine reads and writes. */
  datatype Panel = Panel(
    status: Status,
    mode: Mode,
    ws: Option<Handle>,
    mqttClient: Option<Handle>,
    mqttConnected: bool,
    idleTimer: Option<Handle>,
    liveTimers: set<Handle>,
    nextHandle: nat,
    idleSeconds: nat,
    lastInteraction: int,
    history: seq<string>,
    historySize: nat)

  /** The panel as the script starts it at time `now`. */
  function Start(now: int): Panel {
    Panel(Disconnected, Mqtt, None, None, false, None, {}, 0, 0, now, [], 5)
  }

  /** Everything the machine reacts to: the user's actions, the inputs it reads, and
      the events of the transports it opened. */
  datatype Event =
    | ConnectClick(manualUrl: string, config: UrlConfig, accepted: bool, now: int)
    | DisconnectCall
    | ClientStop
    | WatcherStart
    | WatcherStop
    | MqttAck(client: Handle)
    | MqttClose(client: Handle)
    | MqttMessage(now: int)
    | SocketOpen
    | SocketMessage(now: int)
    | SocketClose(socket: Handle)
    | SendClick(text: string, pubTopic: string, now: int)
    | IdleInput(parsed: Option<int>)
    | HistorySizeInput(parsed: Option<int>)
    | ModeInput(mode: Mode)

  /** `stopMqttClient()`: forgets the current client, if any. */
  function ClientStopped(p: Panel): (q: Panel)
    ensures q.mqttClient.None? && (p.mqttClient.Some? ==> !q.mqttConnected)
    ensures q.(mqttClient := p.mqttClient, mqttConnected := p.mqttConnected) == p
  {
    if p.mqttClient.None? then p else p.(mqttClient := None, mqttConnected := false)
  }

  /** `stopIdleWatcher()`: clears the interval, if any. */
  function WatcherStopped(p: Panel): (q: Panel)
    ensures q.idleTimer.None? && q.liveTimers <= p.liveTimers
    ensures p.idleTimer.Some? ==> p.idleTimer.value !in q.liveTimers
    ensures q.(idleTimer := p.idleTimer, liveTimers := p.liveTimers) == p
  {
    if p.idleTimer.None? then p
    else p.(liveTimers := p.liveTimers - {p.idleTimer.value}, idleTimer := None)
  }

  /** `startIdleWatcher()`: clears the old interval first, then starts a new one. */
  function WatcherStarted(p: Panel): (q: Panel)
    ensures q.idleTimer == Some(p.nextHandle) && p.nextHandle in q.liveTimers && q.nextHandle == p.nextHandle + 1
    ensures forall h :: h in q.liveTimers && h != p.nextHandle ==> h in p.liveTimers && Some(h) != p.idleTimer
  {
    var q := WatcherStopped(p);
    q.(idleTimer := Some(q.nextHandle), liveTimers := q.liveTimers + {q.nextHandle},
       nextHandle := q.nextHandle + 1)
  }

  /** `disconnect()` as the source writes it: the MQTT client is stopped only in MQTT
      mode; the socket is closed and forgotten; the status becomes disconnected. */
  function DisconnectedAsWritten(p: Panel): (q: Panel)
    ensures q.status == Disconnected && q.ws.None?
    ensures p.mode == Mqtt ==> q.mqttClient.None? && (p.mqttClient.Some? ==> !q.mqttConnected)
    ensures p.mode == WebSocket ==> q.mqttClient == p.mqttClient && q.mqttConnected == p.mqttConnected
    ensures q.idleTimer == p.idleTimer && q.liveTimers == p.liveTimers
  {
    var q := if p.mode == Mqtt then ClientStopped(p) else p;
    q.(ws := None, status := Disconnected)
  }

  /** `disconnect()` with the MQTT client stopped in either mode. */
  function DisconnectedFixed(p: Panel): (q: Panel)
    ensures q.status == Disconnected && q.ws.None? && q.mqttClient.None?
    ensures p.mqttClient.Some? ==> !q.mqttConnected
    ensures q.idleTimer == p.idleTimer && q.liveTimers == p.liveTimers && q.mode == p.mode
  {
    ClientStopped(p).(ws := None, status := Disconnected)
  }

  /** The socket `onclose` handler as the source writes it: it does not ask which
      socket closed. */
  function SocketClosedAsWritten(p: Panel, socket: Handle): (q: Panel)
    ensures q.status == Disconnected && q.ws.None? && q.idleTimer.None?
    ensures q.mqttClient == p.mqttClient && q.history == p.history
  {
    WatcherStopped(p.(status := Disconnected, ws := None))
  }

  /** The send that `sendMessage` performs, if any. */
  datatype Outgoing = Publish(client: Handle, topic: string, text: string) | Send(socket: Handle, text: string)

  /** What `sendMessage(text)` sends: nothing for an empty text; in MQTT mode a
      publish on a connected client to the publish topic; otherwise a frame on an open
      socket. An empty publish topic makes the source read a field that does not
      exist and throw, which also sends nothing. */
  function Outbound(p: Panel, text: string, pubTopic: string): (o: Option<Outgoing>)
    ensures o.Some? ==> text != ""
    ensures o.Some? && p.mode == Mqtt ==>
              p.mqttClient.Some? && p.mqttConnected && pubTopic != ""
              && o.value == Publish(p.mqttClient.value, pubTopic, text)
    ensures o.Some? && p.mode == WebSocket ==>
              p.ws.Some? && p.status == Connected && o.value == Send(p.ws.value, text)
  {
    if text == "" then None
    else if p.mode == Mqtt then
      if p.mqttClient.None? || !p.mqttConnected || pubTopic == "" then None
      else Some(Publish(p.mqttClient.value, pubTopic, text))
    else if p.status != Connected || p.ws.None? then None
    else Some(Send(p.ws.value, text))
  }

  /** The transport that `connect()` opens, if any. */
  datatype Dial = DialMqtt(client: Handle, url: string) | DialSocket(socket: Handle, url: string)

  /** What `connect()` opens: nothing when a connection is live or being made (it
      disconnects instead) or when the library refuses the URL; else a fresh client
      or socket for the effective URL. */
  function Opened(p: Panel, manualUrl: string, c: UrlConfig, accepted: bool): (d: Option<Dial>)
    ensures d.Some? ==> p.status == Disconnected && accepted
    ensures d.Some? && p.mode == Mqtt ==> d.value == DialMqtt(p.nextHandle, EffectiveUrl(manualUrl, c))
    ensures d.Some? && p.mode == WebSocket ==> d.value == DialSocket(p.nextHandle, EffectiveUrl(manualUrl, c))
  {
    if p.status != Disconnected || !accepted then None
    else if p.mode == Mqtt then Some(DialMqtt(p.nextHandle, EffectiveUrl(manualUrl, c)))
    else Some(DialSocket(p.nextHandle, EffectiveUrl(manualUrl, c)))
  }

  /** `connectMqtt(url)`: the old client is stopped, then the new client is held, or
      the status falls back to disconnected when the library refuses the URL. */
  function MqttDialed(p: Panel, accepted: bool): (q: Panel)
    ensures accepted <==> q.mqttClient.Some?
    ensures accepted ==> q.mqttClient == Some(p.nextHandle) && (p.mqttClient.Some? ==> !q.mqttConnected)
                         && q.nextHandle == p.nextHandle + 1 && q.status == p.status
    ensures !accepted ==> q.status == Disconnected && q.nextHandle == p.nextHandle
    ensures q.ws == p.ws && q.idleTimer == p.idleTimer
  {
    var q := ClientStopped(p);
    if accepted then q.(mqttClient := Some(q.nextHandle), nextHandle := q.nextHandle + 1)
    else q.(status := Disconnected)
  }

  /** The WebSocket half of `connect()`: the new socket is held, or the status falls
      back to disconnected when the constructor throws. */
  function SocketDialed(p: Panel, accepted: bool): (q: Panel)
    ensures accepted ==> q.ws == Some(p.nextHandle) && q.nextHandle == p.nextHandle + 1 && q.status == p.status
    ensures !accepted ==> q.status == Disconnected && q.ws == p.ws && q.nextHandle == p.nextHandle
    ensures q.mqttClient == p.mqttClient && q.idleTimer == p.idleTimer
  {
    if accepted then p.(ws := Some(p.nextHandle), nextHandle := p.nextHandle + 1)
    else p.(status := Disconnected)
  }

  /** The panel after one event. */
  function Step(p: Panel, e: Event): (q: Panel)
    ensures q.nextHandle >= p.nextHandle
    ensures q.mode == if e.ModeInput? then e.mode else p.mode
    ensures q.idleSeconds == if e.IdleInput? then ClampIdleSeconds(e.parsed) else p.idleSeconds
    ensures q.historySize == if e.HistorySizeInput? then ClampHistorySize(e.parsed) else p.historySize
  {
    match e
    case ConnectClick(manualUrl, c, accepted, now) =>
      if p.status == Connected || p.status == Connecting then DisconnectedFixed(p)
      else
        var q := p.(status := Connecting, lastInteraction := now);
        if q.mode == Mqtt then MqttDialed(q, accepted) else SocketDialed(q, accepted)
    case DisconnectCall => DisconnectedFixed(p)
    case ClientStop => ClientStopped(p)
    case WatcherStart => WatcherStarted(p)
    case WatcherStop => WatcherStopped(p)
    case MqttAck(h) =>
      if p.mqttClient != Some(h) then p
      else WatcherStarted(p.(mqttConnected := true, status := Connected))
    case MqttClose(h) =>
      if p.mqttClient != Some(h) then p
      else WatcherStopped(p.(mqttConnected := false, status := Disconnected, mqttClient := None))
    case MqttMessage(now) =>
      if p.mqttClient.None? then p else p.(lastInteraction := now)
    case SocketOpen => WatcherStarted(p.(status := Connected))
    case SocketMessage(now) => p.(lastInteraction := now)
    case SocketClose(h) =>
      if p.ws != Some(h) then p
      else WatcherStopped(p.(status := Disconnected, ws := None))
    case SendClick(text, pubTopic, now) =>
      if Outbound(p, text, pubTopic).None? then p
      else p.(lastInteraction := now, history := UpdateHistory(p.history, text, p.historySize))
    case IdleInput(parsed) => WatcherStarted(p.(idleSeconds := ClampIdleSeconds(parsed)))
    case HistorySizeInput(parsed) =>
      var n := ClampHistorySize(parsed);
      p.(historySize := n, history := Take(p.history, n))
    case ModeInput(m) => p.(mode := m)
  }

  /** A handle, if present, was handed out already. */
  predicate Issued(h: Option<Handle>, next: nat) {
    h.None? || h.value < next
  }

  /** The invariant of the panel: the only live interval is the one `idleTimer`
      names; every handle held was issued; an MQTT connection implies the connected
      status; when disconnected no transport is held, and never both kinds at once;
      the history has no repeats and fits its size, which is between 1 and 50. */
  predicate Healthy(p: Panel) {
    p.liveTimers == (if p.idleTimer.Some? then {p.idleTimer.value} else {})
    && Issued(p.ws, p.nextHandle) && Issued(p.mqttClient, p.nextHandle) && Issued(p.idleTimer, p.nextHandle)
    && (p.mqttConnected ==> p.mqttClient.Some? && p.status == Connected)
    && (p.status == Disconnected ==> p.ws.None? && p.mqttClient.None?)
    && (p.ws.None? || p.mqttClient.None?)
    && 1 <= p.historySize <= 50 && |p.history| <= p.historySize && Distinct(p.history)
  }

  /** The starting panel is healthy. */
  lemma StartHealthy(now: int)
    ensures Healthy(Start(now))
  {
  }

  /** `connect()` keeps the panel healthy. */
  lemma ConnectHealthy(p: Panel, manualUrl: string, c: UrlConfig, accepted: bool, now: int)
    requires Healthy(p)
    ensures Healthy(Step(p, ConnectClick(manualUrl, c, accepted, now)))
  {
  }

  /** A send keeps the history free of repeats and within its size. */
  lemma SendHealthy(p: Panel, text: string, pubTopic: string, now: int)
    requires Healthy(p)
    ensures Healthy(Step(p, SendClick(text, pubTopic, now)))
  {
    if Outbound(p, text, pubTopic).Some? {
      UpdateHistoryShape(p.history, text, p.historySize);
      UpdateHistoryDistinct(p.history, text, p.historySize);
    }
  }

  /** Cutting the history to a new size keeps it free of repeats and within size. */
  lemma HistorySizeHealthy(p: Panel, parsed: Option<int>)
    requires Healthy(p)
    ensures Healthy(Step(p, HistorySizeInput(parsed)))
  {
    var h := Take(p.history, ClampHistorySize(parsed));
    forall i, j | 0 <= i < j < |h| ensures h[i] != h[j] {
      assert h[i] == p.history[i] && h[j] == p.history[j];
    }
  }

  /** Starting or stopping the idle watcher keeps the panel healthy: the interval
      that was live, if any, is cleared before a new one is counted. */
  lemma WatcherHealthy(p: Panel)
    requires Healthy(p)
    ensures Healthy(WatcherStarted(p)) && Healthy(WatcherStopped(p))
  {
  }

  /** The events raised by a client or socket keep the panel healthy. */
  lemma TransportEventHealthy(p: Panel, e: Event)
    requires Healthy(p)
    requires e.MqttAck? || e.MqttClose? || e.MqttMessage? || e.SocketOpen? || e.SocketMessage? || e.SocketClose?
    ensures Healthy(Step(p, e))
  {
    match e {
      case MqttAck(h) =>
        if p.mqttClient == Some(h) {
          WatcherHealthy(p.(mqttConnected := true, status := Connected));
        }
      case MqttClose(h) =>
        if p.mqttClient == Some(h) {
          WatcherHealthy(p.(mqttConnected := false, status := Disconnected, mqttClient := None));
        }
      case SocketOpen => WatcherHealthy(p.(status := Connected));
      case SocketClose(h) =>
        if p.ws == Some(h) {
          WatcherHealthy(p.(status := Disconnected, ws := None));
        }
      case _ =>
    }
  }

  /** The user's actions and inputs keep the panel healthy. */
  lemma UserEventHealthy(p: Panel, e: Event)
    requires Healthy(p)
    requires !(e.MqttAck? || e.MqttClose? || e.MqttMessage? || e.SocketOpen? || e.SocketMessage? || e.SocketClose?)
    ensures Healthy(Step(p, e))
  {
    match e {
      case ConnectClick(manualUrl, c, accepted, now) => ConnectHealthy(p, manualUrl, c, accepted, now);
      case SendClick(text, pubTopic, now) => SendHealthy(p, text, pubTopic, now);
      case HistorySizeInput(parsed) => HistorySizeHealthy(p, parsed);
      case WatcherStart => WatcherHealthy(p);
      case WatcherStop => WatcherHealthy(p);
      case IdleInput(parsed) => WatcherHealthy(p.(idleSeconds := ClampIdleSeconds(parsed)));
      case _ =>
    }
  }

  /** Every event keeps the panel healthy. */
  lemma StepHealthy(p: Panel, e: Event)
    requires Healthy(p)
    ensures Healthy(Step(p, e))
  {
    if e.MqttAck? || e.MqttClose? || e.MqttMessage? || e.SocketOpen? || e.SocketMessage? || e.SocketClose? {
      TransportEventHealthy(p, e);
    } else {
      UserEventHealthy(p, e);
    }
  }

  /** At most one idle interval is ever live. */
  lemma OneTimerAtMost(p: Panel)
    requires Healthy(p)
    ensures |p.liveTimers| <= 1
  {
  }

  /** Events from a client or socket that is not the current one change nothing. */
  lemma StaleEventsIgnored(p: Panel, h: Handle)
    ensures p.mqttClient != Some(h) ==> Step(p, MqttAck(h)) == p && Step(p, MqttClose(h)) == p
    ensures p.ws != Some(h) ==> Step(p, SocketClose(h)) == p
  {
  }

  /** A transport opened by `connect()` is new: no handle the panel held before can be
      mistaken for it, so the events of every earlier client or socket are stale. */
  lemma OpenedIsFresh(p: Panel, manualUrl: string, c: UrlConfig, accepted: bool, now: int)
    requires Healthy(p)
    ensures var q := Step(p, ConnectClick(manualUrl, c, accepted, now));
            (q.mqttClient.Some? && q.mqttClient != p.mqttClient ==>
               q.mqttClient.value >= p.nextHandle && Some(q.mqttClient.value) != p.ws
               && Some(q.mqttClient.value) != p.idleTimer)
            && (q.ws.Some? && q.ws != p.ws ==>
               q.ws.value >= p.nextHandle && Some(q.ws.value) != p.mqttClient
               && Some(q.ws.value) != p.idleTimer)
  {
  }

  /** `connect()` on a live or pending connection only disconnects; otherwise the
      status becomes connecting, or disconnected again when the library refuses. */
  lemma ConnectToggles(p: Panel, manualUrl: string, c: UrlConfig, accepted: bool, now: int)
    ensures var q := Step(p, ConnectClick(manualUrl, c, accepted, now));
            (p.status != Disconnected ==> q == DisconnectedFixed(p) && Opened(p, manualUrl, c, accepted).None?)
            && (p.status == Disconnected ==>
                  q.lastInteraction == now && (q.status == Connecting <==> accepted)
                  && (accepted <==> Opened(p, manualUrl, c, accepted).Some?))
  {
  }

  /** `disconnect()` always ends disconnected with no client, no MQTT connection and no
      socket, without waiting for any close event; it leaves the idle watcher alone. */
  lemma DisconnectEnds(p: Panel)
    requires Healthy(p)
    ensures var q := Step(p, DisconnectCall);
            q.status == Disconnected && q.mqttClient.None? && !q.mqttConnected && q.ws.None?
            && q.idleTimer == p.idleTimer && q.liveTimers == p.liveTimers
  {
  }

  /** As written, `disconnect()` in WebSocket mode keeps an MQTT client opened before
      the mode was switched: the panel shows disconnected while that client stays
      connected (and its messages are still routed). */
  lemma DisconnectAsWrittenKeepsClient()
    ensures var p := Panel(Connected, WebSocket, None, Some(0), true, Some(1), {1}, 2, 0, 0, [], 5);
            Healthy(p) && DisconnectedAsWritten(p).status == Disconnected
            && DisconnectedAsWritten(p).mqttClient == Some(0) && DisconnectedAsWritten(p).mqttConnected
            && !Healthy(DisconnectedAsWritten(p))
  {
  }

  /** In MQTT mode the source's `disconnect()` and the fixed one agree. */
  lemma DisconnectAgreesInMqttMode(p: Panel)
    requires p.mode == Mqtt
    ensures DisconnectedAsWritten(p) == DisconnectedFixed(p)
  {
  }

  /** As written, the close event of a socket that was already replaced wipes out the
      new one: the panel forgets socket 1, which nobody closed, and shows
      disconnected. */
  lemma StaleSocketCloseAsWritten()
    ensures var p := Panel(Connecting, WebSocket, Some(1), None, false, None, {}, 2, 0, 0, [], 5);
            Healthy(p) && p.ws != Some(0)
            && SocketClosedAsWritten(p, 0).ws.None? && SocketClosedAsWritten(p, 0).status == Disconnected
            && Step(p, SocketClose(0)) == p
  {
  }

  /** The watchdog's decision on a tick at time `now` (milliseconds): close only when
      a timeout is set, the status is connected, a socket is held and more than the
      timeout has passed since the last interaction. */
  predicate IdleFires(p: Panel, now: int)
    ensures IdleFires(p, now) ==> p.ws.Some? && p.idleSeconds > 0 && p.status == Connected
  {
    p.idleSeconds != 0 && p.status == Connected && p.ws.Some?
    && now - p.lastInteraction > p.idleSeconds * 1000
  }

  /** The watchdog never fires while an MQTT client is held, since then no socket is,
      nor when no timeout is set. */
  lemma IdleNeverFiresOverMqtt(p: Panel, now: int)
    requires Healthy(p)
    ensures p.mqttClient.Some? ==> !IdleFires(p, now)
    ensures p.idleSeconds == 0 ==> !IdleFires(p, now)
  {
  }

  /** A successful send puts its text first in the history and adds no repeat. */
  lemma SendRecordsHistory(p: Panel, text: string, pubTopic: string, now: int)
    requires Healthy(p)
    requires Outbound(p, text, pubTopic).Some?
    ensures var q := Step(p, SendClick(text, pubTopic, now));
            q.history[0] == text && Distinct(q.history) && |q.history| <= q.historySize
            && q.lastInteraction == now
  {
    UpdateHistoryShape(p.history, text, p.historySize);
    UpdateHistoryDistinct(p.history, text, p.historySize);
  }

  /** One subscribe request: the topic and QoS of a session. */
  datatype Subscription = Subscription(session: Id, topic: string, qos: int)

  // ---------------------------------------------------------------------------
  // The panel's variables and handlers
  // ---------------------------------------------------------------------------

  class ConnectionSupervisor {
    const manager: TopicManager
    const router: TopicRouter

    var status: Status
    var mode: Mode
    var ws: Option<Handle>
    var mqttClient: Option<Handle>
    var mqttConnected: bool
    var idleTimer: Option<Handle>
    var liveTimers: set<Handle>
    var nextHandle: nat
    var idleSeconds: nat
    var lastInteraction: int
    var history: seq<string>
    var historySize: nat

    /** The variables, as one value. */
    function State(): Panel
      reads this
    {
      Panel(status, mode, ws, mqttClient, mqttConnected, idleTimer, liveTimers, nextHandle,
            idleSeconds, lastInteraction, history, historySize)
    }

    /** The panel is healthy and the router serves this panel's registry. */
    ghost predicate Valid()
      reads this
    {
      Healthy(State()) && router.manager == manager
    }

    /** The script's start-up state at time `now`. */
    constructor(manager: TopicManager, router: TopicRouter, now: int)
      requires router.manager == manager
      ensures this.manager == manager && this.router == router
      ensures State() == Start(now) && Valid()
    {
      this.manager := manager;
      this.router := router;
      status := Disconnected;
      mode := Mqtt;
      ws := None;
      mqttClient := None;
      mqttConnected := false;
      idleTimer := None;
      liveTimers := {};
      nextHandle := 0;
      idleSeconds := 0;
      lastInteraction := now;
      history := [];
      historySize := 5;
    }

    /** `stopMqttClient()`; `ended` is the client told to end, if any. */
    method StopMqttClient() returns (ended: Option<Handle>)
      requires Valid()
      modifies this
      ensures State() == Step(old(State()), ClientStop) && Valid()
      ensures ended == old(mqttClient)
    {
      ended := mqttClient;
      if mqttClient.None? {
        return;
      }
      mqttClient := None;
      mqttConnected := false;
    }

    /** `stopIdleWatcher()`. */
    method StopIdleWatcher()
      requires Valid()
      modifies this
      ensures State() == Step(old(State()), WatcherStop) && Valid()
    {
      if idleTimer.Some? {
        liveTimers := liveTimers - {idleTimer.value};
        idleTimer := None;
      }
    }

    /** `startIdleWatcher()`. */
    method StartIdleWatcher()
      requires Valid()
      modifies this
      ensures State() == Step(old(State()), WatcherStart) && Valid()
    {
      StopIdleWatcher();
      idleTimer := Some(nextHandle);
      liveTimers := liveTimers + {nextHandle};
      nextHandle := nextHandle + 1;
    }

    /** One tick of the idle interval at time `now`: `close` is the socket it asks to
        close, if the watchdog fires. The close itself arrives later as that socket's
        close event. */
    method IdleTick(now: int) returns (close: Option<Handle>)
      requires Valid()
      ensures close.Some? <==> IdleFires(State(), now)
      ensures close.Some? ==> close == ws
    {
      if idleSeconds == 0 || status != Connected || ws.None? {
        return None;
      }
      if now - lastInteraction > idleSeconds * 1000 {
        return ws;
      }
      return None;
    }

    /** `connect()` at time `now`; `accepted` is whether the library accepts the URL
        (its constructor does not throw). `dialed` is the transport opened, if any. */
    method Connect(manualUrl: string, config: UrlConfig, accepted: bool, now: int) returns (dialed: Option<Dial>)
      requires Valid()
      modifies this
      ensures State() == Step(old(State()), ConnectClick(manualUrl, config, accepted, now)) && Valid()
      ensures dialed == Opened(old(State()), manualUrl, config, accepted)
    {
      ConnectHealthy(State(), manualUrl, config, accepted, now);
      var url := EffectiveUrl(manualUrl, config);
      if status == Connected || status == Connecting {
        var _, _ := Disconnect();
        return None;
      }
      status := Connecting;
      lastInteraction := now;
      if mode == Mqtt {
        dialed := ConnectMqtt(url, accepted);
        return;
      }
      if !accepted {
        status := Disconnected;
        return None;
      }
      ws := Some(nextHandle);
      nextHandle := nextHandle + 1;
      return Some(DialSocket(ws.value, url));
    }

    /** `connectMqtt(url)`, entered with the status connecting; `accepted` is whether
        `mqtt.connect` accepts the URL. `dialed` is the client opened, if any. */
    method ConnectMqtt(url: string, accepted: bool) returns (dialed: Option<Dial>)
      requires Valid() && status == Connecting && ws.None?
      modifies this
      ensures State() == MqttDialed(old(State()), accepted) && Valid()
      ensures dialed == if accepted then Some(DialMqtt(old(nextHandle), url)) else None
    {
      var _ := StopMqttClient();
      if !accepted {
        status := Disconnected;
        return None;
      }
      mqttClient := Some(nextHandle);
      nextHandle := nextHandle + 1;
      return Some(DialMqtt(mqttClient.value, url));
    }

    /** `disconnect()`, with the MQTT client stopped whatever the mode. `ended` is the
        client told to end and `closed` the socket asked to close, if any. */
    method Disconnect() returns (ended: Option<Handle>, closed: Option<Handle>)
      requires Valid()
      modifies this
      ensures State() == Step(old(State()), DisconnectCall) && Valid()
      ensures ended == old(mqttClient) && closed == old(ws)
    {
      ended := StopMqttClient();
      closed := ws;
      ws := None;
      status := Disconnected;
    }

    /** The MQTT `connect` event of `client`. For the current client: connected, the
        watchdog restarted, and `subs` holds one subscribe request per session in tab
        order. A stale client's event does nothing. */
    method OnMqttConnect(client: Handle) returns (subs: seq<Subscription>)
      requires Valid()
      modifies this
      ensures State() == Step(old(State()), MqttAck(client)) && Valid()
      ensures old(mqttClient) != Some(client) ==> subs == []
      ensures old(mqttClient) == Some(client) ==>
                |subs| == |manager.AllSessions()|
                && forall i :: 0 <= i < |subs| ==>
                     var s := manager.AllSessions()[i];
                     subs[i] == Subscription(s.id, s.topic, s.qos)
    {
      StepHealthy(State(), MqttAck(client));
      if mqttClient != Some(client) {
        return [];
      }
      mqttConnected := true;
      status := Connected;
      StartIdleWatcher();
      var sessions := manager.AllSessions();
      subs := [];
      var i := 0;
      while i < |sessions|
        invariant 0 <= i <= |sessions| && |subs| == i
        invariant forall j :: 0 <= j < i ==> subs[j] == Subscription(sessions[j].id, sessions[j].topic, sessions[j].qos)
      {
        subs := subs + [Subscription(sessions[i].id, sessions[i].topic, sessions[i].qos)];
        i := i + 1;
      }
    }

    /** The outcome of one subscribe request: while some client is held, the session's
        subscribed flag becomes the outcome; otherwise nothing happens. */
    method OnSubscribeOutcome(session: Id, ok: bool)
      requires Valid() && manager.Valid()
      modifies manager.sessions.Values
      ensures mqttClient.Some? && session in manager.sessions ==>
                manager.sessions[session].State() == old(manager.sessions[session].State()).(isSubscribed := ok)
      ensures mqttClient.None? ==> forall k :: k in manager.sessions ==> unchanged(manager.sessions[k])
      ensures forall k :: k in manager.sessions && k != session ==> unchanged(manager.sessions[k])
    {
      if mqttClient.None? {
        return;
      }
      manager.SetSubscribed(session, ok);
    }

    /** An MQTT message on `topic` at time `now`, while some client is held: the
        interaction time is refreshed and the router delivers it; `matched` are the
        sessions that got it. With no client held nothing happens. */
    method OnMqttMessage(topic: string, payload: string, now: int) returns (matched: seq<TopicSession>)
      requires Valid() && manager.Valid()
      modifies this, manager.sessions.Values
      ensures State() == Step(old(State()), MqttMessage(now)) && Valid()
      ensures manager.State() == old(manager.State())
      ensures old(mqttClient).None? ==> matched == [] && forall k :: k in manager.sessions ==> unchanged(manager.sessions[k])
      ensures old(mqttClient).Some? ==>
                matched == Lookup(MatchingIds(manager.keys, manager.sessions, topic), manager.sessions)
                && forall k :: k in manager.sessions ==>
                     manager.sessions[k].State() ==
                       if TopicMatch.MatchTopic(manager.sessions[k].topic, topic)
                       then Delivery(old(manager.sessions[k].State()), RxEntry(topic, payload), now,
                                     manager.sessions[k].maxLogs, Some(k) != manager.activeTopicId)
                       else old(manager.sessions[k].State())
    {
      if mqttClient.None? {
        return [];
      }
      lastInteraction := now;
      assert State() == Step(old(State()), MqttMessage(now)) && Valid();
      matched := router.RouteMessage(topic, payload, now);
    }

    /** The MQTT `close` event of `client`: for the current client, disconnected, the
        client forgotten and the watchdog stopped. A stale client's event does nothing. */
    method OnMqttClose(client: Handle)
      requires Valid()
      modifies this
      ensures State() == Step(old(State()), MqttClose(client)) && Valid()
    {
      StepHealthy(State(), MqttClose(client));
      if mqttClient != Some(client) {
        return;
      }
      mqttConnected := false;
      status := Disconnected;
      mqttClient := None;
      StopIdleWatcher();
    }

    /** The `open` event of `socket`: connected and the watchdog started. Like the
        message handler, the source does not ask which socket opened. */
    method OnSocketOpen(socket: Handle)
      requires Valid()
      modifies this
      ensures State() == Step(old(State()), SocketOpen) && Valid()
    {
      StepHealthy(State(), SocketOpen);
      status := Connected;
      StartIdleWatcher();
    }

    /** A message on `socket` at time `now`: the interaction time is refreshed. */
    method OnSocketMessage(socket: Handle, now: int)
      requires Valid()
      modifies this
      ensures State() == Step(old(State()), SocketMessage(now)) && Valid()
    {
      lastInteraction := now;
    }

    /** The `close` event of `socket`, checked against the current socket as the MQTT
        handlers check their client: for the current socket, disconnected, the socket
        forgotten and the watchdog stopped; a replaced socket's event does nothing. */
    method OnSocketClose(socket: Handle)
      requires Valid()
      modifies this
      ensures State() == Step(old(State()), SocketClose(socket)) && Valid()
    {
      StepHealthy(State(), SocketClose(socket));
      if ws != Some(socket) {
        return;
      }
      status := Disconnected;
      ws := None;
      StopIdleWatcher();
    }

    /** `sendMessage()` with the typed text and the trimmed publish topic at time
        `now`; `sent` is what went out. */
    method SendMessage(text: string, pubTopic: string, now: int) returns (sent: Option<Outgoing>)
      requires Valid()
      modifies this
      ensures State() == Step(old(State()), SendClick(text, pubTopic, now)) && Valid()
      ensures sent == Outbound(old(State()), text, pubTopic)
    {
      StepHealthy(State(), SendClick(text, pubTopic, now));
      if text == "" {
        return None;
      }
      if mode == Mqtt {
        if mqttClient.None? || !mqttConnected {
          return None;
        }
        if pubTopic == "" {
          return None;
        }
        sent := Some(Publish(mqttClient.value, pubTopic, text));
      } else {
        if status != Connected || ws.None? {
          return None;
        }
        sent := Some(Send(ws.value, text));
      }
      lastInteraction := now;
      history := UpdateHistory(history, text, historySize);
    }

    /** The idle-timeout input changed: clamp it and restart the watchdog. */
    method SetIdleSeconds(parsed: Option<int>)
      requires Valid()
      modifies this
      ensures State() == Step(old(State()), IdleInput(parsed)) && Valid()
    {
      StepHealthy(State(), IdleInput(parsed));
      idleSeconds := ClampIdleSeconds(parsed);
      StartIdleWatcher();
    }

    /** The history-size input changed: clamp it and cut the history to fit. */
    method SetHistorySize(parsed: Option<int>)
      requires Valid()
      modifies this
      ensures State() == Step(old(State()), HistorySizeInput(parsed)) && Valid()
    {
      StepHealthy(State(), HistorySizeInput(parsed));
      historySize := ClampHistorySize(parsed);
      history := Take(history, historySize);
    }

    /** The mode selector changed. */
    method SetMode(m: Mode)
      requires Valid()
      modifies this
      ensures State() == Step(old(State()), ModeInput(m)) && Valid()
    {
      mode := m;
    }
  }
}

=== FILE: topic_manager.dfy ===
/** The registry of topic sessions (`TopicManager` in src/modules/TopicManager.js):
    a map from id to session that remembers insertion order, the tab order, the
    active session and a round-robin colour cursor. */
module Manager {
  import opened Common
  import opened Sessions
  import TopicMatch

  /** The saved form of the whole registry; `None` is a key that is absent or null. */
  datatype ManagerConfig = ManagerConfig(
    topicConfigs: Option<seq<SessionConfig>>,
    activeTopicId: Option<Id>,
    topicOrder: Option<seq<Id>>)

  /** The sessions for `ids`, in order, skipping ids that have no session. */
  function Lookup(ids: seq<Id>, m: map<Id, TopicSession>): (r: seq<TopicSession>)
    ensures |r| <= |ids|
    ensures forall i :: 0 <= i < |r| ==> r[i] in m.Values
    ensures (forall k :: k in ids ==> k in m) ==>
              |r| == |ids| && forall i :: 0 <= i < |ids| ==> r[i] == m[ids[i]]
  {
    if ids == [] then []
    else if ids[0] in m then [m[ids[0]]] + Lookup(ids[1..], m)
    else Lookup(ids[1..], m)
  }

  /** Looking up one more id that has a session appends that session. */
  lemma {:induction false} LookupSnoc(ids: seq<Id>, k: Id, m: map<Id, TopicSession>)
    requires k in m
    ensures Lookup(ids + [k], m) == Lookup(ids, m) + [m[k]]
  {
    if ids == [] {
      assert ids + [k] == [k];
      assert [k][1..] == [];
    } else {
      assert (ids + [k])[1..] == ids[1..] + [k];
      LookupSnoc(ids[1..], k, m);
    }
  }

  /** The first id, in `ids` order, whose session has exactly this topic. */
  function FirstWithTopic(ids: seq<Id>, m: map<Id, TopicSession>, topic: string): (r: Option<Id>)
    requires forall k :: k in ids ==> k in m
    ensures r.Some? ==> r.value in ids && m[r.value].topic == topic
    ensures r.None? <==> forall i :: 0 <= i < |ids| ==> m[ids[i]].topic != topic
    ensures r.None? ==> forall k :: k in ids ==> m[k].topic != topic
  {
    if ids == [] then None
    else if m[ids[0]].topic == topic then Some(ids[0])
    else FirstWithTopic(ids[1..], m, topic)
  }

  /** No session before the one `FirstWithTopic` picks has that topic. */
  lemma {:induction false} FirstWithTopicIsFirst(ids: seq<Id>, m: map<Id, TopicSession>, topic: string, j: nat)
    requires forall k :: k in ids ==> k in m
    requires FirstWithTopic(ids, m, topic).Some?
    requires j < |ids| && ids[j] == FirstWithTopic(ids, m, topic).value && Distinct(ids)
    ensures forall i :: 0 <= i < j ==> m[ids[i]].topic != topic
  {
    if m[ids[0]].topic != topic {
      assert j != 0;
      assert Distinct(ids[1..]) by {
        forall a, b | 0 <= a < b < |ids[1..]| ensures ids[1..][a] != ids[1..][b] {
          assert ids[1..][a] == ids[a + 1] && ids[1..][b] == ids[b + 1];
        }
      }
      FirstWithTopicIsFirst(ids[1..], m, topic, j - 1);
      forall i | 0 <= i < j ensures m[ids[i]].topic != topic {
        if i > 0 {
          assert ids[i] == ids[1..][i - 1];
        }
      }
    } else {
      assert ids[0] == ids[j];
    }
  }

  /** The ids, in order, whose session's filter matches `topic`. */
  function MatchingIds(ids: seq<Id>, m: map<Id, TopicSession>, topic: string): (r: seq<Id>)
    requires forall k :: k in ids ==> k in m
    ensures |r| <= |ids|
    ensures forall i :: 0 <= i < |r| ==> r[i] in ids && TopicMatch.MatchTopic(m[r[i]].topic, topic)
    ensures forall i :: 0 <= i < |ids| && TopicMatch.MatchTopic(m[ids[i]].topic, topic) ==> ids[i] in r
  {
    if ids == [] then []
    else if TopicMatch.MatchTopic(m[ids[0]].topic, topic) then [ids[0]] + MatchingIds(ids[1..], m, topic)
    else MatchingIds(ids[1..], m, topic)
  }

  /** An id is among the matches exactly when it is scanned and its session's filter
      matches. */
  lemma MatchingIdsMember(ids: seq<Id>, m: map<Id, TopicSession>, topic: string, x: Id)
    requires forall k :: k in ids ==> k in m
    ensures x in MatchingIds(ids, m, topic) <==> x in ids && TopicMatch.MatchTopic(m[x].topic, topic)
  {
    if x in ids && TopicMatch.MatchTopic(m[x].topic, topic) {
      var i :| 0 <= i < |ids| && ids[i] == x;
    }
  }

  /** Scanning one more id extends the matches by that id exactly when it matches, so
      the matches keep the order of the scan. */
  lemma {:induction false} MatchingIdsSnoc(ids: seq<Id>, k: Id, m: map<Id, TopicSession>, topic: string)
    requires forall x :: x in ids + [k] ==> x in m
    ensures MatchingIds(ids + [k], m, topic) ==
            MatchingIds(ids, m, topic) + (if TopicMatch.MatchTopic(m[k].topic, topic) then [k] else [])
  {
    if ids == [] {
      assert ids + [k] == [k];
      assert [k][1..] == [];
    } else {
      assert (ids + [k])[1..] == ids[1..] + [k];
      MatchingIdsSnoc(ids[1..], k, m, topic);
    }
  }

  /** Matching never repeats an id that the scan does not repeat. */
  lemma {:induction false} MatchingIdsDistinct(ids: seq<Id>, m: map<Id, TopicSession>, topic: string)
    requires forall k :: k in ids ==> k in m
    requires Distinct(ids)
    ensures Distinct(MatchingIds(ids, m, topic))
  {
    if ids != [] {
      assert Distinct(ids[1..]) by {
        forall a, b | 0 <= a < b < |ids[1..]| ensures ids[1..][a] != ids[1..][b] {
          assert ids[1..][a] == ids[a + 1] && ids[1..][b] == ids[b + 1];
        }
      }
      MatchingIdsDistinct(ids[1..], m, topic);
      var rest := MatchingIds(ids[1..], m, topic);
      if TopicMatch.MatchTopic(m[ids[0]].topic, topic) {
        assert ids[0] !in ids[1..];
        assert ids[0] !in rest;
        forall a, b | 0 <= a < b < |[ids[0]] + rest| ensures ([ids[0]] + rest)[a] != ([ids[0]] + rest)[b] {
          if a == 0 {
            assert ([ids[0]] + rest)[b] == rest[b - 1];
          } else {
            assert ([ids[0]] + rest)[a] == rest[a - 1] && ([ids[0]] + rest)[b] == rest[b - 1];
          }
        }
      }
    }
  }

  /** `keys` with each id kept only at its first occurrence: the order in which a
      `Map` fed these ids one by one holds its keys. */
  function Dedup(s: seq<Id>): (r: seq<Id>)
    ensures Distinct(r)
    ensures forall x :: x in r <==> x in s
    ensures |r| <= |s|
  {
    if s == [] then []
    else
      var d := Dedup(s[..|s| - 1]);
      assert forall x :: x in s <==> x in s[..|s| - 1] || x == s[|s| - 1] by {
        assert s == s[..|s| - 1] + [s[|s| - 1]];
      }
      if s[|s| - 1] in d then d else d + [s[|s| - 1]]
  }

  /** A sequence without repeats is its own first-occurrence order. */
  lemma {:induction false} DedupOfDistinct(s: seq<Id>)
    requires Distinct(s)
    ensures Dedup(s) == s
  {
    if s != [] {
      var init := s[..|s| - 1];
      assert Distinct(init);
      DedupOfDistinct(init);
      assert s[|s| - 1] !in init;
      assert init + [s[|s| - 1]] == s;
    }
  }

  /** The position of the last occurrence of `x`: the entry a `Map` keeps for `x` when
      fed these keys one by one. */
  function LastIndex(s: seq<Id>, x: Id): (i: nat)
    requires x in s
    ensures i < |s| && s[i] == x
    ensures forall j :: i < j < |s| ==> s[j] != x
  {
    if s[|s| - 1] == x then |s| - 1
    else
      assert x in s[..|s| - 1] by {
        assert s == s[..|s| - 1] + [s[|s| - 1]];
      }
      LastIndex(s[..|s| - 1], x)
  }

  /** The configurations carried by a saved registry; none when the key is absent. */
  function Configs(config: ManagerConfig): seq<SessionConfig> {
    config.topicConfigs.GetOr([])
  }

  /** The configurations of a list of sessions, in order. */
  function ConfigsOf(ss: seq<TopicSession>): (cs: seq<SessionConfig>)
    reads ss
    requires forall i :: 0 <= i < |ss| ==> ss[i].Valid()
    ensures |cs| == |ss|
    ensures forall i :: 0 <= i < |ss| ==> cs[i] == ss[i].ToConfig()
  {
    if ss == [] then [] else [ss[0].ToConfig()] + ConfigsOf(ss[1..])
  }

  /** The ids of a list of sessions, in order. */
  function IdsOf(ss: seq<TopicSession>): (ids: seq<Id>)
    ensures |ids| == |ss|
    ensures forall i :: 0 <= i < |ss| ==> ids[i] == ss[i].id
  {
    if ss == [] then [] else IdsOf(ss[..|ss| - 1]) + [ss[|ss| - 1].id]
  }

  /** The whole state of a registry as one value: the map's keys in the order it
      first received them, the map itself, the tab order, the active id and the
      colour cursor. */
  datatype Registry = Registry(
    keys: seq<Id>,
    sessions: map<Id, TopicSession>,
    order: seq<Id>,
    active: Option<Id>,
    cursor: nat)

  /** The registry of `new TopicManager()` and of `clear()`. */
  const Empty := Registry([], map[], [], None, 0)

  /** `keys` lists the map's ids once each, every session is stored under its own
      id, and every session has settings a constructor can produce. */
  ghost predicate WellKeyed(r: Registry) {
    Distinct(r.keys)
    && (forall k :: k in r.sessions <==> k in r.keys)
    && (forall k :: k in r.sessions ==> r.sessions[k].id == k && r.sessions[k].Valid())
  }

  /** The tab order is the map's order, and there is an active session, one that
      exists, exactly when there is any session. */
  predicate OrderedState(r: Registry) {
    r.order == r.keys
    && (r.active.None? <==> r.keys == [])
    && (r.active.Some? ==> r.active.value in r.sessions)
  }

  /** No two sessions of the map share a topic. */
  predicate DistinctTopics(m: map<Id, TopicSession>) {
    forall a, b :: a in m && b in m && m[a].topic == m[b].topic ==> a == b
  }

  /** `sessions.set(s.id, s)`: a new id joins the end of the map's order; an id
      already present keeps its place and gets the new session. */
  function Put(r: Registry, s: TopicSession): (q: Registry)
    ensures s.id in q.sessions && q.sessions[s.id] == s
    ensures forall k :: k in r.sessions && k != s.id ==> k in q.sessions && q.sessions[k] == r.sessions[k]
    ensures q.sessions.Keys == r.sessions.Keys + {s.id}
    ensures |q.keys| == |r.keys| + (if s.id in r.sessions then 0 else 1)
    ensures q.order == r.order && q.active == r.active && q.cursor == r.cursor
  {
    r.(keys := if s.id in r.sessions then r.keys else r.keys + [s.id],
       sessions := r.sessions[s.id := s])
  }

  /** `sessions.set(s.id, s)` followed by pushing the id onto the tab order, and
      making it active when it is the only session. */
  function Added(r: Registry, s: TopicSession): (q: Registry)
    ensures s.id in q.sessions && q.sessions[s.id] == s
    ensures q.order == r.order + [s.id] && q.cursor == r.cursor
    ensures r.sessions == map[] ==> q.active == Some(s.id)
    ensures |q.sessions| != 1 ==> q.active == r.active
  {
    var p := Put(r, s);
    p.(order := r.order + [s.id], active := if |p.sessions| == 1 then Some(s.id) else r.active)
  }

  /** The registry after `createSession` built `s`: the colour cursor advanced, then
      `s` added. */
  function Created(r: Registry, s: TopicSession): (q: Registry)
    ensures s.id in q.sessions && q.sessions[s.id] == s
    ensures q.order == r.order + [s.id] && q.cursor == r.cursor + 1
  {
    Added(r.(cursor := r.cursor + 1), s)
  }

  /** The registry after `deleteSession(id)`: unchanged for an unknown id; otherwise
      the id leaves the map and the tab order, and an active id that leaves falls
      back to the first remaining tab, or none. */
  function Deleted(r: Registry, id: Id): (q: Registry)
    ensures q.sessions.Keys == r.sessions.Keys - {id}
    ensures forall k :: k in q.sessions ==> q.sessions[k] == r.sessions[k]
    ensures id in r.sessions ==> id !in q.order && q.active != Some(id)
    ensures id in r.sessions ==> q.keys == Without(r.keys, id) && q.order == Without(r.order, id)
    ensures id in r.sessions && r.active == Some(id) ==>
              q.active == if q.order == [] then None else Some(q.order[0])
    ensures r.active != Some(id) ==> q.active == r.active
    ensures id !in r.sessions ==> q == r
    ensures q.cursor == r.cursor
  {
    if id !in r.sessions then r
    else
      var order := Without(r.order, id);
      r.(keys := Without(r.keys, id), sessions := r.sessions - {id}, order := order,
         active := if r.active == Some(id) then (if order == [] then None else Some(order[0])) else r.active)
  }

  /** The registry after `switchToSession(id)`: a known id becomes active. */
  function Activated(r: Registry, id: Id): (q: Registry)
    ensures q.keys == r.keys && q.sessions == r.sessions && q.order == r.order && q.cursor == r.cursor
    ensures q.active == if id in r.sessions then Some(id) else r.active
  {
    if id in r.sessions then r.(active := Some(id)) else r
  }

  /** The registry that `set` builds from an empty map by storing `ss` one by one. */
  function PutAll(ss: seq<TopicSession>): (q: Registry)
    ensures q.order == [] && q.active == None && q.cursor == 0
    ensures |q.keys| <= |ss|
  {
    if ss == [] then Empty else Put(PutAll(ss[..|ss| - 1]), ss[|ss| - 1])
  }

  /** The registry after `importConfig(config)` rebuilt the sessions `built`, one per
      saved configuration: the map they make, the saved tab order as it stands, the
      saved active id or else the first tab, and the cursor at the number of sessions. */
  function Restored(config: ManagerConfig, built: seq<TopicSession>): (q: Registry)
    ensures forall k :: k in q.sessions <==> k in IdsOf(built)
    ensures q.order == config.topicOrder.GetOr([]) && q.cursor == |q.sessions|
    ensures config.activeTopicId.Some? ==> q.active == config.activeTopicId
    ensures config.activeTopicId.None? && q.order == [] ==> q.active.None?
    ensures config.activeTopicId.None? && q.order != [] ==> q.active == Some(q.order[0])
  {
    PutAllShape(built);
    var p := PutAll(built);
    var order := config.topicOrder.GetOr([]);
    Registry(p.keys, p.sessions, order,
             if config.activeTopicId.Some? then config.activeTopicId
             else if order != [] then Some(order[0]) else None,
             |p.sessions|)
  }

  /** A map whose keys are exactly the elements of a repeat-free sequence has as many
      entries as the sequence. */
  lemma {:induction false} DistinctCardinality<V>(s: seq<Id>, m: map<Id, V>)
    requires Distinct(s) && forall k :: k in m <==> k in s
    ensures |m| == |s|
  {
    if s == [] {
      assert m == map[];
    } else {
      var x := s[|s| - 1];
      var init := s[..|s| - 1];
      assert s == init + [x];
      assert Distinct(init);
      assert x !in init;
      var m' := m - {x};
      assert forall k :: k in m' <==> k in init;
      DistinctCardinality(init, m');
      assert m.Keys == m'.Keys + {x};
    }
  }

  /** A well-keyed registry holds as many sessions as it lists ids. */
  lemma WellKeyedSize(r: Registry)
    requires WellKeyed(r)
    ensures |r.sessions| == |r.keys|
  {
    DistinctCardinality(r.keys, r.sessions);
  }

  /** Storing a session with valid settings keeps a registry well keyed. */
  lemma PutWellKeyed(r: Registry, s: TopicSession)
    requires WellKeyed(r) && s.Valid()
    ensures WellKeyed(Put(r, s))
  {
    if s.id !in r.sessions {
      DistinctSnoc(r.keys, s.id);
    }
  }

  /** Adding a session keeps a registry well keyed. */
  lemma AddedWellKeyed(r: Registry, s: TopicSession)
    requires WellKeyed(r) && s.Valid()
    ensures WellKeyed(Added(r, s))
  {
    PutWellKeyed(r, s);
  }

  /** Creating a session under a new id keeps the tab order equal to the map's order,
      puts the new id last in both, and activates it exactly when the registry was
      empty; an existing active session stays active. */
  lemma CreatedOrdered(r: Registry, s: TopicSession)
    requires WellKeyed(r) && OrderedState(r) && s.id !in r.sessions
    ensures OrderedState(Created(r, s))
    ensures Created(r, s).keys == r.keys + [s.id]
    ensures Created(r, s).active == if r.keys == [] then Some(s.id) else r.active
  {
    WellKeyedSize(r);
    assert |r.sessions[s.id := s]| == |r.sessions| + 1;
  }

  /** A session whose topic no stored session has joins without a clash, even when it
      replaces a session stored under the same id. */
  lemma CreatedDistinctTopics(r: Registry, s: TopicSession)
    requires WellKeyed(r) && DistinctTopics(r.sessions)
    requires FirstWithTopic(r.keys, r.sessions, s.topic).None?
    ensures DistinctTopics(Created(r, s).sessions)
  {
  }

  /** Deleting keeps a registry well keyed. */
  lemma DeletedWellKeyed(r: Registry, id: Id)
    requires WellKeyed(r)
    ensures WellKeyed(Deleted(r, id))
  {
    if id in r.sessions {
      WithoutDistinct(r.keys, id);
      forall k ensures k in r.sessions - {id} <==> k in Without(r.keys, id) {
        WithoutMember(r.keys, id, k);
      }
    }
  }

  /** Deleting keeps the tab order equal to the map's order, and the fallback of
      `deleteSession` (the first remaining tab) names a session that exists. */
  lemma DeletedOrdered(r: Registry, id: Id)
    requires WellKeyed(r) && OrderedState(r)
    ensures OrderedState(Deleted(r, id))
  {
    if id in r.sessions {
      var order := Without(r.order, id);
      if order != [] {
        WithoutMember(r.order, id, order[0]);
      }
      if r.active.Some? && r.active != Some(id) {
        WithoutMember(r.keys, id, r.active.value);
      }
    }
  }

  /** Deleting the active session makes the first remaining tab active, which is the
      second tab when the first one was deleted, or none when it was the only tab. */
  lemma DeletedFallback(r: Registry, id: Id)
    requires WellKeyed(r) && OrderedState(r) && r.active == Some(id)
    ensures Deleted(r, id).active ==
              if |r.order| == 1 then None
              else if r.order[0] == id then Some(r.order[1])
              else Some(r.order[0])
  {
    var o := r.order;
    if o[0] == id {
      assert id !in o[1..] by {
        forall j | 0 <= j < |o[1..]| ensures o[1..][j] != id {
          assert o[1..][j] == o[j + 1];
        }
      }
      assert Without(o, id) == o[1..];
    } else {
      assert Without(o, id)[0] == o[0];
      assert |o| != 1;
    }
  }

  /** Deleting the session just created gives back the registry as it was, except
      that the colour cursor has moved on. */
  lemma DeleteUndoesCreate(r: Registry, s: TopicSession)
    requires WellKeyed(r) && OrderedState(r) && s.id !in r.sessions
    ensures Deleted(Created(r, s), s.id) == r.(cursor := r.cursor + 1)
  {
    var c := Created(r, s);
    CreatedOrdered(r, s);
    assert c.sessions == r.sessions[s.id := s];
    WithoutSnoc(r.keys, s.id);
    RemoveAdded(r.sessions, s.id, s);
  }

  /** Filtering out an element just appended gives back the sequence before. */
  lemma WithoutSnoc(s: seq<Id>, x: Id)
    requires x !in s
    ensures Without(s + [x], x) == s
  {
    WithoutAppend(s, [x], x);
    assert Without([x], x) == [];
    assert s + [] == s;
  }

  /** Removing a key just added to a map that lacked it gives back the map before. */
  lemma RemoveAdded<V>(m: map<Id, V>, k: Id, v: V)
    requires k !in m
    ensures m[k := v] - {k} == m
  {
  }

  /** Storing sessions one by one from an empty map lists each id once, at its first
      occurrence, and keeps for each id the session stored last under it. */
  lemma {:induction false} PutAllShape(ss: seq<TopicSession>)
    ensures PutAll(ss).keys == Dedup(IdsOf(ss))
    ensures forall k :: k in PutAll(ss).sessions <==> k in IdsOf(ss)
    ensures forall k :: k in PutAll(ss).sessions ==> PutAll(ss).sessions[k] == ss[LastIndex(IdsOf(ss), k)]
    ensures PutAll(ss).order == [] && PutAll(ss).active == None && PutAll(ss).cursor == 0
  {
    if ss != [] {
      var init := ss[..|ss| - 1];
      var s := ss[|ss| - 1];
      PutAllShape(init);
      var ids := IdsOf(ss);
      assert ids[..|ids| - 1] == IdsOf(init);
      assert ids == IdsOf(init) + [s.id];
      forall k | k in PutAll(ss).sessions
        ensures PutAll(ss).sessions[k] == ss[LastIndex(ids, k)]
      {
        if k != s.id {
          assert LastIndex(ids, k) == LastIndex(IdsOf(init), k);
        }
      }
    }
  }

  /** Storing sessions with valid settings one by one from an empty map gives a
      well-keyed registry. */
  lemma {:induction false} PutAllWellKeyed(ss: seq<TopicSession>)
    requires forall i :: 0 <= i < |ss| ==> ss[i].Valid()
    ensures WellKeyed(PutAll(ss))
  {
    if ss != [] {
      PutAllWellKeyed(ss[..|ss| - 1]);
      PutWellKeyed(PutAll(ss[..|ss| - 1]), ss[|ss| - 1]);
    }
  }

  /** Storing sessions whose ids are all different keeps them in the order stored,
      each under its own id. */
  lemma {:induction false} PutAllDistinct(ss: seq<TopicSession>)
    requires Distinct(IdsOf(ss))
    ensures PutAll(ss).keys == IdsOf(ss)
    ensures forall k :: k in PutAll(ss).sessions <==> k in IdsOf(ss)
    ensures forall i :: 0 <= i < |ss| ==> ss[i].id in PutAll(ss).sessions && PutAll(ss).sessions[ss[i].id] == ss[i]
  {
    if ss != [] {
      var init := ss[..|ss| - 1];
      var s := ss[|ss| - 1];
      var ids := IdsOf(ss);
      assert ids == IdsOf(init) + [s.id];
      assert Distinct(IdsOf(init)) by {
        forall a, b | 0 <= a < b < |IdsOf(init)| ensures IdsOf(init)[a] != IdsOf(init)[b] {
          assert IdsOf(init)[a] == ids[a] && IdsOf(init)[b] == ids[b];
        }
      }
      assert s.id !in IdsOf(init) by {
        forall a | 0 <= a < |IdsOf(init)| ensures IdsOf(init)[a] != s.id {
          assert IdsOf(init)[a] == ids[a] && s.id == ids[|ss| - 1];
        }
      }
      PutAllDistinct(init);
    }
  }

  /** Restoring, with the saved tab order and active id of a registry in its ordinary
      state, sessions rebuilt with the settings of its sessions in its order gives back
      the same ids in the same map and tab order, the same active id, sessions with the
      same settings under each id, and the cursor at the number of sessions. */
  lemma RestoreOfSaved(r: Registry, config: ManagerConfig, built: seq<TopicSession>)
    requires WellKeyed(r) && OrderedState(r)
    requires config.topicOrder == Some(r.order) && config.activeTopicId == r.active
    requires |built| == |r.keys|
    requires forall i :: 0 <= i < |built| ==> built[i].Settings() == r.sessions[r.keys[i]].Settings()
    ensures Restored(config, built).keys == r.keys && Restored(config, built).order == r.order
    ensures Restored(config, built).active == r.active && Restored(config, built).cursor == |r.keys|
    ensures forall k :: k in Restored(config, built).sessions <==> k in r.sessions
    ensures forall k :: k in Restored(config, built).sessions ==>
              Restored(config, built).sessions[k].Settings() == r.sessions[k].Settings()
    ensures OrderedState(Restored(config, built))
  {
    assert IdsOf(built) == r.keys by {
      forall i | 0 <= i < |built| ensures IdsOf(built)[i] == r.keys[i] {
        assert built[i].Settings().id == r.sessions[r.keys[i]].Settings().id;
      }
    }
    PutAllDistinct(built);
    DistinctCardinality(r.keys, PutAll(built).sessions);
    forall k | k in PutAll(built).sessions
      ensures PutAll(built).sessions[k].Settings() == r.sessions[k].Settings()
    {
      var i :| 0 <= i < |r.keys| && r.keys[i] == k;
      assert PutAll(built).sessions[k] == built[i];
    }
  }

  class TopicManager {
    /** The ids in the order the session map first received them. */
    var keys: seq<Id>
    var sessions: map<Id, TopicSession>
    var activeTopicId: Option<Id>
    var topicOrder: seq<Id>
    var colorIndex: nat

    /** The fields as one registry value. */
    function State(): Registry
      reads this
    {
      Registry(keys, sessions, topicOrder, activeTopicId, colorIndex)
    }

    /** The map's keys are listed once each in `keys`, and each session is stored
        under its own id with settings a constructor can produce. */
    ghost predicate Valid()
      reads this
    {
      WellKeyed(State())
    }

    /** The invariant the interactive operations keep: the tab order is the map's
        order, and there is an active session, one that exists, exactly when there
        is any session. A restore from an arbitrary saved form may break it. */
    predicate Ordered()
      reads this
    {
      OrderedState(State())
    }

    /** `new TopicManager()`. */
    constructor()
      ensures State() == Empty
      ensures Valid() && Ordered()
    {
      keys := [];
      sessions := map[];
      activeTopicId := None;
      topicOrder := [];
      colorIndex := 0;
    }

    /** `_getNextColor()`: the palette entry under the cursor, which then advances. */
    method NextColor() returns (c: Color)
      modifies this
      ensures c == Palette[old(colorIndex) % |Palette|]
      ensures State() == old(State()).(cursor := old(colorIndex) + 1)
    {
      c := Palette[colorIndex % |Palette|];
      colorIndex := colorIndex + 1;
    }

    /** `findByTopic(topic)`: the first session, in map order, with exactly this topic. */
    method FindByTopic(topic: string) returns (found: Option<TopicSession>)
      requires Valid()
      ensures found.None? ==> FirstWithTopic(keys, sessions, topic).None?
      ensures found.Some? ==> FirstWithTopic(keys, sessions, topic).Some?
                              && found.value == sessions[FirstWithTopic(keys, sessions, topic).value]
    {
      var i := 0;
      while i < |keys|
        invariant 0 <= i <= |keys|
        invariant forall j :: 0 <= j < i ==> sessions[keys[j]].topic != topic
      {
        if sessions[keys[i]].topic == topic {
          FirstAt(keys, sessions, topic, i);
          return Some(sessions[keys[i]]);
        }
        i := i + 1;
      }
      return None;
    }

    /** `getActiveSession()`: the session under the active id, if both exist. */
    function ActiveSession(): (r: Option<TopicSession>)
      reads this
      ensures r.Some? ==> activeTopicId.Some? && activeTopicId.value in sessions
                          && r.value == sessions[activeTopicId.value]
      ensures r.None? ==> activeTopicId.None? || activeTopicId.value !in sessions
    {
      if activeTopicId.Some? && activeTopicId.value in sessions then Some(sessions[activeTopicId.value]) else None
    }

    /** `getAllSessions()`: the sessions in tab order, skipping ids with no session. */
    function AllSessions(): (r: seq<TopicSession>)
      reads this
      ensures |r| <= |topicOrder|
      ensures forall i :: 0 <= i < |r| ==> r[i] in sessions.Values
      ensures Valid() && Ordered() ==> |r| == |keys| && forall i :: 0 <= i < |keys| ==> r[i] == sessions[keys[i]]
    {
      Lookup(topicOrder, sessions)
    }

    /** `findMatchingSessions(topic)`: every session whose filter matches, in map order. */
    method FindMatchingSessions(topic: string) returns (matched: seq<TopicSession>)
      requires Valid()
      ensures matched == Lookup(MatchingIds(keys, sessions, topic), sessions)
    {
      matched := [];
      ghost var ids: seq<Id> := [];
      var i := 0;
      while i < |keys|
        invariant 0 <= i <= |keys|
        invariant ids == MatchingIds(keys[..i], sessions, topic)
        invariant matched == Lookup(ids, sessions)
      {
        var s := sessions[keys[i]];
        var hit := TopicMatch.MatchTopicScan(s.topic, topic);
        assert keys[..i + 1] == keys[..i] + [keys[i]];
        MatchingIdsSnoc(keys[..i], keys[i], sessions, topic);
        if hit {
          LookupSnoc(ids, keys[i], sessions);
          matched := matched + [s];
          ids := ids + [keys[i]];
        }
        i := i + 1;
      }
      assert keys[..i] == keys;
    }

    /** `createSession(topic, options)`. A session with exactly this topic already
        present is returned and nothing changes. Otherwise a session is built from the
        topic and the next palette colour with `options` laid on top, and the registry
        becomes `Created` of it. */
    method CreateSession(topic: string, options: SessionConfig, freshId: Id, now: int) returns (s: TopicSession)
      requires Valid() && freshId !in sessions && now != 0
      modifies this
      ensures Valid()
      ensures FirstWithTopic(old(keys), old(sessions), topic).Some? ==>
                s == old(sessions)[FirstWithTopic(old(keys), old(sessions), topic).value]
                && State() == old(State())
      ensures FirstWithTopic(old(keys), old(sessions), topic).None? ==>
                fresh(s) && s.Initial(Overlay(ColorBase(topic, old(colorIndex)), options), freshId, now)
                && State() == Created(old(State()), s)
    {
      var existing := FindByTopic(topic);
      if existing.Some? {
        return existing.value;
      }
      ghost var r := State();
      var cursor := colorIndex;
      var c := NextColor();
      s := new TopicSession(Overlay(ColorBase(topic, cursor), options), freshId, now);
      assert State() == r.(cursor := r.cursor + 1);
      Add(s);
      assert State() == Created(r, s);
    }

    /** The rest of `createSession` once the session is built: `set` it, push its id
        onto the tab order, and make it active when it is the only session. */
    method Add(s: TopicSession)
      requires Valid() && s.Valid()
      modifies this
      ensures State() == Added(old(State()), s)
      ensures Valid()
    {
      ghost var r := State();
      AddedWellKeyed(r, s);
      if s.id !in sessions {
        keys := keys + [s.id];
      }
      sessions := sessions[s.id := s];
      topicOrder := topicOrder + [s.id];
      if |sessions| == 1 {
        activeTopicId := Some(s.id);
      }
    }

    /** `deleteSession(id)`: answers whether the id was known, and the registry
        becomes `Deleted` of it. */
    method DeleteSession(id: Id) returns (deleted: bool)
      requires Valid()
      modifies this
      ensures deleted <==> id in old(sessions)
      ensures State() == Deleted(old(State()), id)
      ensures Valid()
      ensures old(Ordered()) ==> Ordered()
    {
      DeletedWellKeyed(State(), id);
      if Ordered() {
        DeletedOrdered(State(), id);
      }
      if id !in sessions {
        return false;
      }
      sessions := sessions - {id};
      keys := Without(keys, id);
      topicOrder := Without(topicOrder, id);
      if activeTopicId == Some(id) {
        activeTopicId := if topicOrder == [] then None else Some(topicOrder[0]);
      }
      return true;
    }

    /** `switchToSession(id)`: the registry becomes `Activated` of the id, and the
        unread counter of that session, and of no other, returns to zero. */
    method SwitchToSession(id: Id)
      requires Valid()
      modifies this, sessions.Values
      ensures State() == Activated(old(State()), id)
      ensures Valid()
      ensures id in sessions ==> sessions[id].State() == old(sessions[id].State()).(unreadCount := 0)
      ensures forall k :: k in sessions && k != id ==> unchanged(sessions[k])
      ensures old(Ordered()) ==> Ordered()
    {
      if id !in sessions {
        return;
      }
      activeTopicId := Some(id);
      sessions[id].ResetUnread();
    }

    /** `setSubscribed(id, b)`: records the outcome of a subscribe on that session only;
        an unknown id changes nothing. */
    method SetSubscribed(id: Id, b: bool)
      requires Valid()
      modifies sessions.Values
      ensures id in sessions ==> sessions[id].State() == old(sessions[id].State()).(isSubscribed := b)
      ensures forall k :: k in sessions && k != id ==> unchanged(sessions[k])
    {
      if id in sessions {
        sessions[id].isSubscribed := b;
      }
    }

    /** `exportConfig()`: the configuration of every session in tab order, the active
        id and a copy of the tab order. */
    function ExportConfig(): (c: ManagerConfig)
      reads this, sessions.Values
      requires Valid()
      ensures c.topicOrder == Some(topicOrder) && c.activeTopicId == activeTopicId
      ensures c.topicConfigs.Some? && |c.topicConfigs.value| == |AllSessions()|
      ensures forall i :: 0 <= i < |AllSessions()| ==> c.topicConfigs.value[i] == AllSessions()[i].ToConfig()
    {
      ManagerConfig(Some(ConfigsOf(AllSessions())), activeTopicId, Some(topicOrder))
    }

    /** `importConfig(config)`: one session is rebuilt per saved configuration, in
        order (`built`, each under its own id or a fresh one), and the registry becomes
        `Restored` from them. */
    method ImportConfig(config: ManagerConfig, freshIds: seq<Id>, now: int) returns (ghost built: seq<TopicSession>)
      requires now != 0 && |freshIds| == |Configs(config)|
      modifies this
      ensures |built| == |Configs(config)|
      ensures forall j :: 0 <= j < |built| ==>
                fresh(built[j]) && built[j].Initial(Configs(config)[j], freshIds[j], now)
      ensures State() == Restored(config, built)
      ensures Valid()
    {
      var cfgs := Configs(config);
      sessions := map[];
      keys := [];
      topicOrder := [];
      var rebuilt := Rebuild(cfgs, freshIds, now);
      StoreAll(rebuilt);
      AdoptSaved(config);
      PutAllWellKeyed(rebuilt);
      built := rebuilt;
    }

    /** The tail of `importConfig`: the saved tab order as it stands, the saved active
        id or else the first tab, and the cursor at the number of sessions. */
    method AdoptSaved(config: ManagerConfig)
      modifies this
      ensures keys == old(keys) && sessions == old(sessions)
      ensures topicOrder == config.topicOrder.GetOr([])
      ensures activeTopicId == if config.activeTopicId.Some? then config.activeTopicId
                               else if topicOrder != [] then Some(topicOrder[0]) else None
      ensures colorIndex == |sessions|
    {
      topicOrder := config.topicOrder.GetOr([]);
      activeTopicId := if config.activeTopicId.Some? then config.activeTopicId
                       else if topicOrder != [] then Some(topicOrder[0]) else None;
      colorIndex := |sessions|;
    }

    /** `sessions.set(s.id, s)` for each session in turn, starting from an empty map. */
    method StoreAll(ss: seq<TopicSession>)
      requires keys == [] && sessions == map[]
      modifies this
      ensures keys == PutAll(ss).keys && sessions == PutAll(ss).sessions
      ensures topicOrder == old(topicOrder) && activeTopicId == old(activeTopicId) && colorIndex == old(colorIndex)
    {
      var i := 0;
      while i < |ss|
        invariant 0 <= i <= |ss|
        invariant keys == PutAll(ss[..i]).keys && sessions == PutAll(ss[..i]).sessions
        invariant topicOrder == old(topicOrder) && activeTopicId == old(activeTopicId) && colorIndex == old(colorIndex)
      {
        var s := ss[i];
        if s.id !in sessions {
          keys := keys + [s.id];
        }
        sessions := sessions[s.id := s];
        assert ss[..i + 1][..i] == ss[..i];
        i := i + 1;
      }
      assert ss[..i] == ss;
    }

    /** `clear()`: back to the empty registry. */
    method Clear()
      modifies this
      ensures State() == Empty
      ensures Valid() && Ordered()
    {
      sessions := map[];
      keys := [];
      topicOrder := [];
      activeTopicId := None;
      colorIndex := 0;
    }

    /** Saving and then restoring a registry in its ordinary state gives back the same
        ids in the same map and tab order, the same active session, and sessions with
        the same settings. */
    method SaveAndRestore(freshIds: seq<Id>, now: int)
      requires Valid() && Ordered() && now != 0 && |freshIds| == |keys|
      modifies this
      ensures Valid() && Ordered()
      ensures keys == old(keys) && topicOrder == old(topicOrder) && activeTopicId == old(activeTopicId)
      ensures forall k :: k in sessions <==> k in old(sessions)
      ensures forall k :: k in sessions ==> sessions[k].Settings() == old(sessions)[k].Settings()
      ensures colorIndex == |keys|
    {
      ghost var r := State();
      var config := ExportConfig();
      ghost var cfgs := Configs(config);
      assert forall i :: 0 <= i < |r.keys| ==>
               Normalized(cfgs[i], freshIds[i], now) == r.sessions[r.keys[i]].Settings();
      var built := ImportConfig(config, freshIds, now);
      assert forall i :: 0 <= i < |built| ==> built[i].Settings() == r.sessions[r.keys[i]].Settings();
      RestoreOfSaved(r, config, built);
    }

    /** After `clear()`, the next session created gets the first palette colour and is
        the only, active session. */
    method ClearThenCreate(topic: string, freshId: Id, now: int) returns (s: TopicSession)
      requires now != 0
      modifies this
      ensures Valid() && Ordered()
      ensures s.color == Palette[0].value && s.colorBg == Palette[0].bg
      ensures keys == [s.id] && activeTopicId == Some(s.id)
    {
      Clear();
      s := CreateSession(topic, NoOptions, freshId, now);
      CreatedOrdered(Empty, s);
    }
  }

  /** `TopicSession.fromConfig` on each saved configuration, in order. */
  method Rebuild(cfgs: seq<SessionConfig>, freshIds: seq<Id>, now: int) returns (built: seq<TopicSession>)
    requires now != 0 && |freshIds| == |cfgs|
    ensures |built| == |cfgs|
    ensures forall j :: 0 <= j < |built| ==> fresh(built[j]) && built[j].Initial(cfgs[j], freshIds[j], now)
    ensures forall j :: 0 <= j < |built| ==> built[j].Valid()
  {
    built := [];
    var i := 0;
    while i < |cfgs|
      invariant 0 <= i <= |cfgs| && |built| == i
      invariant forall j :: 0 <= j < i ==> fresh(built[j]) && built[j].Initial(cfgs[j], freshIds[j], now)
      invariant forall j :: 0 <= j < i ==> built[j].Valid()
    {
      var s := new TopicSession(cfgs[i], freshIds[i], now);
      built := built + [s];
      i := i + 1;
    }
  }

  /** The options `createSession` builds before laying the caller's options on top:
      the topic and the palette colour under the cursor. */
  function ColorBase(topic: string, cursor: nat): (c: SessionConfig)
    ensures c.id.None? && c.topic == Some(topic)
    ensures c.color == Some(Palette[cursor % |Palette|].value) && c.colorBg == Some(Palette[cursor % |Palette|].bg)
  {
    NoOptions.(topic := Some(topic), color := Some(Palette[cursor % |Palette|].value),
               colorBg := Some(Palette[cursor % |Palette|].bg))
  }

  /** The settings `createSession` gives a new session: the palette entry under the
      cursor unless the options name a colour; a colour given as the empty string is
      falsy, so the constructor falls back to the first palette entry; the topic and a
      fresh id unless the options override them. */
  lemma CreatedSettings(topic: string, cursor: nat, options: SessionConfig, freshId: Id, now: int)
    ensures var p := Normalized(Overlay(ColorBase(topic, cursor), options), freshId, now);
            (options.color.None? ==> p.color == Palette[cursor % |Palette|].value)
            && (options.color == Some("") ==> p.color == Palette[0].value)
            && (options.color.Some? && options.color.value != "" ==> p.color == options.color.value)
            && (options.colorBg.None? ==> p.colorBg == Palette[cursor % |Palette|].bg)
            && (options.colorBg == Some("") ==> p.colorBg == Palette[0].bg)
            && (options.colorBg.Some? && options.colorBg.value != "" ==> p.colorBg == options.colorBg.value)
            && (options.topic.None? ==> p.topic == topic)
            && (options.id.None? ==> p.id == freshId)
  {
  }

  /** When the first `i` ids miss the topic and id `i` has it, `FirstWithTopic` picks it. */
  lemma {:induction false} FirstAt(ids: seq<Id>, m: map<Id, TopicSession>, topic: string, i: nat)
    requires forall k :: k in ids ==> k in m
    requires i < |ids| && forall j :: 0 <= j < i ==> m[ids[j]].topic != topic
    requires m[ids[i]].topic == topic
    ensures FirstWithTopic(ids, m, topic) == Some(ids[i])
  {
    if i > 0 {
      FirstAt(ids[1..], m, topic, i - 1);
    }
  }
}

=== FILE: topic_match.dfy ===
/** `matchTopic`: the topic-filter matcher used to fan messages out to sessions.
    It follows MQTT v3.1.1 section 4.7 loosely: `#` (4.7.1.2) matches the rest of the
    topic, including the parent level, and `+` (4.7.1.3) matches one level.  Where the
    code departs from the standard the model follows the code: a `#` reached at any
    position answers true, wildcards inside a level are ordinary characters, and `$`
    topics (4.7.2) get no special case. As the standard asks, `+` accepts an empty
    level. */
module TopicMatch {

  /** The scan behind `split('/')`: `level` is the level read so far, `s` what is left. */
  function SplitFrom(s: string, level: string): (levels: seq<string>)
    requires '/' !in level
    ensures |levels| >= 1
    ensures forall i :: 0 <= i < |levels| ==> '/' !in levels[i]
    decreases |s|
  {
    if s == [] then [level]
    else if s[0] == '/' then [level] + SplitFrom(s[1..], "")
    else SplitFrom(s[1..], level + [s[0]])
  }

  /** `s.split('/')`: the levels between separators, in order; never empty. */
  function Split(s: string): (levels: seq<string>)
    ensures |levels| >= 1
    ensures forall i :: 0 <= i < |levels| ==> '/' !in levels[i]
  {
    SplitFrom(s, "")
  }

  /** A separator-free rest of input only extends the level being read. */
  lemma {:induction false} SplitFromSingle(a: string, level: string)
    requires '/' !in level && '/' !in a
    ensures SplitFrom(a, level) == [level + a]
    decreases |a|
  {
    if a == [] {
      assert level + a == level;
    } else {
      assert '/' !in a[1..];
      SplitFromSingle(a[1..], level + [a[0]]);
      assert level + [a[0]] + a[1..] == level + a;
    }
  }

  /** A string without separators is a single level. */
  lemma SplitSingle(a: string)
    requires '/' !in a
    ensures Split(a) == [a]
  {
    SplitFromSingle(a, "");
    assert "" + a == a;
  }

  lemma {:induction false} SplitFromFirst(a: string, rest: string, level: string)
    requires '/' !in level && '/' !in a
    ensures SplitFrom(a + "/" + rest, level) == [level + a] + Split(rest)
    decreases |a|
  {
    var s := a + "/" + rest;
    if a == [] {
      assert s[0] == '/' && s[1..] == rest && level + a == level;
    } else {
      assert s[0] == a[0] && s[1..] == a[1..] + "/" + rest;
      assert '/' !in a[1..];
      SplitFromFirst(a[1..], rest, level + [a[0]]);
      assert level + [a[0]] + a[1..] == level + a;
    }
  }

  /** A separator-free first level followed by `/` splits off as the first level. */
  lemma SplitFirst(a: string, rest: string)
    requires '/' !in a
    ensures Split(a + "/" + rest) == [a] + Split(rest)
  {
    SplitFromFirst(a, rest, "");
    assert "" + a == a;
  }

  /** `levels.join('/')`. */
  function Join(levels: seq<string>): string
    requires |levels| >= 1
    decreases |levels|
  {
    if |levels| == 1 then levels[0] else levels[0] + "/" + Join(levels[1..])
  }

  lemma {:induction false} JoinSplitFrom(s: string, level: string)
    requires '/' !in level
    ensures Join(SplitFrom(s, level)) == level + s
    decreases |s|
  {
    if s == [] {
    } else if s[0] == '/' {
      var rest := SplitFrom(s[1..], "");
      JoinSplitFrom(s[1..], "");
      assert ([level] + rest)[1..] == rest;
      assert level + s == level + "/" + s[1..];
    } else {
      JoinSplitFrom(s[1..], level + [s[0]]);
      assert level + [s[0]] + s[1..] == level + s;
    }
  }

  /** Joining the levels of a string gives the string back, so `Split` loses nothing. */
  lemma JoinSplit(s: string)
    ensures Join(Split(s)) == s
  {
    JoinSplitFrom(s, "");
  }

  /** Two strings with the same levels are the same string. */
  lemma SplitInjective(a: string, b: string)
    requires Split(a) == Split(b)
    ensures a == b
  {
    JoinSplit(a);
    JoinSplit(b);
  }

  /** The other direction of the round trip: levels free of `/`, joined and split
      again, come back unchanged. */
  lemma {:induction false} SplitJoin(ls: seq<string>)
    requires |ls| >= 1
    requires forall i :: 0 <= i < |ls| ==> '/' !in ls[i]
    ensures Split(Join(ls)) == ls
    decreases |ls|
  {
    if |ls| == 1 {
      SplitSingle(ls[0]);
    } else {
      SplitJoin(ls[1..]);
      SplitFirst(ls[0], Join(ls[1..]));
    }
  }

  /** One filter level accepts one topic level: `+` accepts any level, including an
      empty one; every other level, even one that contains `+` or `#`, must be equal. */
  predicate LevelMatches(p: string, t: string) {
    p == "+" || p == t
  }

  /** The level-by-level scan of the loop in `matchTopic`, over split levels. */
  predicate MatchLevels(ps: seq<string>, ts: seq<string>)
    ensures MatchLevels(ps, ts) && "#" !in ps ==> |ps| == |ts|
    decreases |ps|
  {
    if ps == [] then ts == []
    else if ps[0] == "#" then true
    else if ts == [] then false
    else LevelMatches(ps[0], ts[0]) && MatchLevels(ps[1..], ts[1..])
  }

  /** `matchTopic(subscriptionPattern, messageTopic)`, with its three early answers. */
  predicate MatchTopic(pattern: string, topic: string)
    ensures MatchTopic(pattern, topic) ==> pattern != "" && topic != ""
    ensures pattern != "" && pattern == topic ==> MatchTopic(pattern, topic)
  {
    if pattern == "" || topic == "" then false
    else if pattern == topic then true
    else if pattern == "#" then true
    else MatchLevels(Split(pattern), Split(topic))
  }

  /** The loop of `matchTopic` as the source runs it: an index over the pattern's levels
      with early returns. */
  method MatchTopicScan(pattern: string, topic: string) returns (matched: bool)
    ensures matched == MatchTopic(pattern, topic)
  {
    if pattern == "" || topic == "" {
      return false;
    }
    if pattern == topic {
      return true;
    }
    if pattern == "#" {
      return true;
    }
    var ps := Split(pattern);
    var ts := Split(topic);
    var i := 0;
    while i < |ps|
      invariant 0 <= i <= |ps| && i <= |ts|
      invariant MatchLevels(ps, ts) == MatchLevels(ps[i..], ts[i..])
    {
      assert ps[i..][0] == ps[i] && ps[i..][1..] == ps[i + 1..];
      if ps[i] == "#" {
        return true;
      }
      if i >= |ts| {
        return false;
      }
      assert ts[i..][0] == ts[i] && ts[i..][1..] == ts[i + 1..];
      if ps[i] == "+" {
        i := i + 1;
        continue;
      }
      if ps[i] != ts[i] {
        return false;
      }
      i := i + 1;
    }
    assert ps[i..] == [];
    return |ps| == |ts|;
  }

  /** The first `n` filter levels hold no `#` and each accepts the topic level at its
      position (the topic has at least `n` levels). */
  predicate PrefixMatches(ps: seq<string>, ts: seq<string>, n: nat) {
    n <= |ps| && n <= |ts| &&
    forall j :: 0 <= j < n ==> ps[j] != "#" && LevelMatches(ps[j], ts[j])
  }

  /** A `#` is reached at level `h`: everything before it matched. */
  predicate HashReachedAt(ps: seq<string>, ts: seq<string>, h: nat) {
    h < |ps| && ps[h] == "#" && PrefixMatches(ps, ts, h)
  }

  lemma PrefixMatchesTail(ps: seq<string>, ts: seq<string>, n: nat)
    requires ps != [] && ts != [] && ps[0] != "#" && LevelMatches(ps[0], ts[0])
    ensures PrefixMatches(ps, ts, n + 1) <==> PrefixMatches(ps[1..], ts[1..], n)
  {
    if PrefixMatches(ps[1..], ts[1..], n) {
      forall j | 0 <= j < n + 1 ensures ps[j] != "#" && LevelMatches(ps[j], ts[j]) {
        if j > 0 {
          assert ps[1..][j - 1] == ps[j] && ts[1..][j - 1] == ts[j];
        }
      }
    }
    if PrefixMatches(ps, ts, n + 1) {
      forall j | 0 <= j < n ensures ps[1..][j] != "#" && LevelMatches(ps[1..][j], ts[1..][j]) {
        assert ps[1..][j] == ps[j + 1] && ts[1..][j] == ts[j + 1];
      }
    }
  }

  /** The level scan matches exactly when a `#` is reached after a matching prefix,
      whatever topic levels remain (none, one or many), or when no `#` is reached and
      both have the same number of levels, each filter level accepting its topic level. */
  lemma {:induction false} MatchLevelsIff(ps: seq<string>, ts: seq<string>)
    ensures MatchLevels(ps, ts) <==>
      (exists h: nat :: HashReachedAt(ps, ts, h)) ||
      (|ps| == |ts| && PrefixMatches(ps, ts, |ps|))
    decreases |ps|
  {
    if ps == [] {
    } else if ps[0] == "#" {
      assert HashReachedAt(ps, ts, 0);
    } else if ts == [] {
      forall h: nat ensures !HashReachedAt(ps, ts, h) {
      }
    } else if !LevelMatches(ps[0], ts[0]) {
      forall h: nat ensures !HashReachedAt(ps, ts, h) {
        if HashReachedAt(ps, ts, h) {
          assert false;
        }
      }
      if |ps| == |ts| && PrefixMatches(ps, ts, |ps|) {
        assert false;
      }
    } else {
      MatchLevelsIff(ps[1..], ts[1..]);
      PrefixMatchesTail(ps, ts, |ps| - 1);
      if exists h: nat :: HashReachedAt(ps[1..], ts[1..], h) {
        var h: nat :| HashReachedAt(ps[1..], ts[1..], h);
        PrefixMatchesTail(ps, ts, h);
        assert ps[h + 1] == ps[1..][h];
        assert HashReachedAt(ps, ts, h + 1);
      }
      if exists h: nat :: HashReachedAt(ps, ts, h) {
        var h: nat :| HashReachedAt(ps, ts, h);
        assert h > 0;
        PrefixMatchesTail(ps, ts, h - 1);
        assert ps[1..][h - 1] == ps[h];
        assert HashReachedAt(ps[1..], ts[1..], h - 1);
      }
    }
  }

  /** Equal level sequences always match. */
  lemma {:induction false} MatchLevelsReflexive(ls: seq<string>)
    ensures MatchLevels(ls, ls)
    decreases |ls|
  {
    if ls != [] && ls[0] != "#" {
      MatchLevelsReflexive(ls[1..]);
    }
  }

  /** The three early answers of `matchTopic` agree with the level scan, so the
      matcher is exactly "both non-empty and the levels match". */
  lemma MatchTopicIsLevelScan(pattern: string, topic: string)
    ensures MatchTopic(pattern, topic) <==>
      pattern != "" && topic != "" && MatchLevels(Split(pattern), Split(topic))
  {
    if pattern != "" && topic != "" {
      if pattern == topic {
        MatchLevelsReflexive(Split(pattern));
      } else if pattern == "#" {
        SplitSingle("#");
      }
    }
  }

  /** What `matchTopic` answers, stated without the scan: an empty filter or topic never
      matches; otherwise it matches exactly when a `#` is reached after a matching prefix,
      or when, with no `#` reached, the level counts agree and every filter level is `+`
      or equal to its topic level. */
  lemma MatchTopicIff(pattern: string, topic: string)
    ensures MatchTopic(pattern, topic) <==>
      pattern != "" && topic != "" &&
      ((exists h: nat :: HashReachedAt(Split(pattern), Split(topic), h)) ||
       (|Split(pattern)| == |Split(topic)| &&
        PrefixMatches(Split(pattern), Split(topic), |Split(pattern)|)))
  {
    MatchTopicIsLevelScan(pattern, topic);
    MatchLevelsIff(Split(pattern), Split(topic));
  }

  /** The early answers: an empty filter or topic never matches, a non-empty string
      matches itself, and the filter `#` matches every non-empty topic. */
  lemma MatchTopicBasics(pattern: string, topic: string)
    ensures pattern == "" || topic == "" ==> !MatchTopic(pattern, topic)
    ensures pattern != "" && pattern == topic ==> MatchTopic(pattern, topic)
    ensures topic != "" ==> MatchTopic("#", topic)
  {
  }

  /** A `#` reached during the scan answers true, however many topic levels remain,
      so `home/#` also matches `home`. */
  lemma HashShortCircuits(pattern: string, topic: string, h: nat)
    requires pattern != "" && topic != ""
    requires HashReachedAt(Split(pattern), Split(topic), h)
    ensures MatchTopic(pattern, topic)
  {
    MatchTopicIff(pattern, topic);
  }

  /** A filter with neither `+` nor `#` as a level matches only itself. */
  lemma WildcardFreeMatchesOnlyItself(pattern: string, topic: string)
    requires forall i :: 0 <= i < |Split(pattern)| ==> Split(pattern)[i] != "+" && Split(pattern)[i] != "#"
    ensures MatchTopic(pattern, topic) <==> pattern != "" && pattern == topic
  {
    var ps, ts := Split(pattern), Split(topic);
    MatchTopicIff(pattern, topic);
    if MatchTopic(pattern, topic) {
      assert !exists h: nat :: HashReachedAt(ps, ts, h);
      assert |ps| == |ts| && PrefixMatches(ps, ts, |ps|);
      assert ps == ts by {
        forall j | 0 <= j < |ps| ensures ps[j] == ts[j] {
          assert LevelMatches(ps[j], ts[j]);
        }
      }
      SplitInjective(pattern, topic);
    }
  }
}

=== FILE: topic_match_cases.dfy ===
/** The expected-result table of the matcher's test script, and the places where the
    matcher meets or departs from MQTT v3.1.1 section 4.7, as concrete cases.  The test script
    carries its own copy of `matchTopic`; it is the same algorithm, so `MatchTopic`
    stands for both.  Each literal is written as the `Join` of its levels, so that
    `SplitJoin` gives its levels without unfolding `Split` character by character. */
module TopicMatchCases {
  import opened TopicMatch

  /** Exact-match rows of the table. */
  lemma ExactCases()
    ensures MatchTopic("home/temp", "home/temp")
    ensures !MatchTopic("home/temp", "home/humidity")
  {
    SplitJoin(["home", "temp"]);
    assert Join(["home", "temp"]) == "home/temp";
    SplitJoin(["home", "humidity"]);
    assert Join(["home", "humidity"]) == "home/humidity";
  }

  /** Single-level wildcard row: `+` takes one level. */
  lemma SingleLevelCase()
    ensures MatchTopic("home/+/temp", "home/living/temp")
  {
    SplitJoin(["home", "+", "temp"]);
    assert Join(["home", "+", "temp"]) == "home/+/temp";
    SplitJoin(["home", "living", "temp"]);
    assert Join(["home", "living", "temp"]) == "home/living/temp";
  }

  /** Single-level wildcard row: `+` does not take two levels. */
  lemma SingleLevelDepthCase()
    ensures !MatchTopic("home/+/temp", "home/living/room/temp")
  {
    SplitJoin(["home", "+", "temp"]);
    assert Join(["home", "+", "temp"]) == "home/+/temp";
    SplitJoin(["home", "living", "room", "temp"]);
    assert Join(["home", "living", "room", "temp"]) == "home/living/room/temp";
    assert ["home", "+", "temp"][1..] == ["+", "temp"] && ["+", "temp"][1..] == ["temp"];
    assert ["home", "living", "room", "temp"][1..] == ["living", "room", "temp"];
    assert ["living", "room", "temp"][1..] == ["room", "temp"];
    assert !MatchLevels(["temp"], ["room", "temp"]);
  }

  /** Single-level wildcard row: a leading `+` takes the first level. */
  lemma LeadingSingleLevelCase()
    ensures MatchTopic("+/temp", "home/temp")
  {
    SplitJoin(["+", "temp"]);
    assert Join(["+", "temp"]) == "+/temp";
    SplitJoin(["home", "temp"]);
    assert Join(["home", "temp"]) == "home/temp";
  }

  /** Multi-level wildcard rows: `#` takes the rest, including nothing at all. */
  lemma MultiLevelCases()
    ensures MatchTopic("home/#", "home/living/room/temp")
    ensures MatchTopic("home/#", "home/temp")
    ensures MatchTopic("home/#", "home")
    ensures MatchTopic("#", "any/topic/here")
  {
    SplitJoin(["home", "#"]);
    assert Join(["home", "#"]) == "home/#";
    SplitJoin(["home", "living", "room", "temp"]);
    assert Join(["home", "living", "room", "temp"]) == "home/living/room/temp";
    SplitJoin(["home", "temp"]);
    assert Join(["home", "temp"]) == "home/temp";
    SplitSingle("home");
  }

  /** Boundary rows: an empty filter or an empty topic never matches. */
  lemma EmptyCases()
    ensures !MatchTopic("", "home")
    ensures !MatchTopic("home", "")
  {
  }

  /** `+` accepts an empty level, as MQTT v3.1.1 section 4.7.1.3 asks (`sport/+`
      matches `sport/`). */
  lemma EmptyLevelCase()
    ensures MatchTopic("a/+", "a/")
  {
    SplitJoin(["a", "+"]);
    assert Join(["a", "+"]) == "a/+";
    SplitJoin(["a", ""]);
    assert Join(["a", ""]) == "a/";
  }

  /** Departure from MQTT v3.1.1 section 4.7.1.2: a `#` that is not the last level
      still answers true once reached, where the standard calls the filter invalid. */
  lemma InnerHashCase()
    ensures MatchTopic("a/#/b", "a")
  {
    SplitJoin(["a", "#", "b"]);
    assert Join(["a", "#", "b"]) == "a/#/b";
    SplitSingle("a");
  }

  /** Departure from MQTT v3.1.1 section 4.7.1: a wildcard inside a level is a plain
      character, where the standard calls the filter invalid. */
  lemma EmbeddedWildcardCases()
    ensures !MatchTopic("home/te#", "home/temp")
    ensures !MatchTopic("a+", "ab")
  {
    SplitJoin(["home", "te#"]);
    assert Join(["home", "te#"]) == "home/te#";
    SplitJoin(["home", "temp"]);
    assert Join(["home", "temp"]) == "home/temp";
    SplitSingle("a+");
    SplitSingle("ab");
  }

  /** Departure from MQTT v3.1.1 section 4.7.2: topics starting with `$` are matched by
      a leading wildcard like any other. */
  lemma DollarTopicCases()
    ensures MatchTopic("#", "$SYS/uptime")
    ensures MatchTopic("+/uptime", "$SYS/uptime")
  {
    SplitJoin(["+", "uptime"]);
    assert Join(["+", "uptime"]) == "+/uptime";
    SplitJoin(["$SYS", "uptime"]);
    assert Join(["$SYS", "uptime"]) == "$SYS/uptime";
  }
}

=== FILE: topic_router.dfy ===
/** Fan-out of messages to sessions (`TopicRouter` in src/modules/TopicRouter.js): an
    inbound message goes to every session whose filter matches, outbound and system
    lines go to one chosen session or to all. */
module Router {
  import opened Common
  import opened Sessions
  import opened Manager
  import TopicMatch

  /** The line logged for an inbound message. Its time is stamped by `addLog`. */
  function RxEntry(topic: string, payload: string): (e: LogEntry)
    ensures e.kind == Rx && e.message == payload && e.originalTopic == Some(topic)
  {
    LogEntry(Rx, payload, Some(topic), 0)
  }

  /** The line logged for a published message: the text under a header naming the
      topic it was sent to. */
  function TxEntry(topic: string, message: string): (e: LogEntry)
    ensures e.kind == Tx && e.originalTopic == Some(topic)
    ensures |e.message| == |topic| + |message| + 7
    ensures e.message[|e.message| - |message|..] == message
  {
    LogEntry(Tx, "[发送到 " + topic + "]\n" + message, Some(topic), 0)
  }

  /** A system line, which names no topic. */
  function SysEntry(message: string): (e: LogEntry)
    ensures e.kind == Sys && e.message == message && e.originalTopic.None?
  {
    LogEntry(Sys, message, None, 0)
  }

  /** The state after `addLog(entry)` followed, when `bump`, by `incrementUnread()`. */
  function Delivery(st: SessionState, entry: LogEntry, now: int, max: int, bump: bool): (r: SessionState)
    ensures r.unreadCount == st.unreadCount + (if bump then 1 else 0)
    ensures r.totalReceived == st.totalReceived + (if st.isPaused then 0 else 1)
    ensures Bounded(st, max) ==> Bounded(r, max)
  {
    var l := Logged(st, entry, now, max);
    if bump then l.(unreadCount := l.unreadCount + 1) else l
  }

  /** A delivery counts one unread line exactly when `bump`, even on a paused
      session, which keeps no line; everything else is as for `addLog`. */
  lemma DeliveryUnread(st: SessionState, entry: LogEntry, now: int, max: int, bump: bool)
    ensures Delivery(st, entry, now, max, bump).unreadCount == st.unreadCount + (if bump then 1 else 0)
    ensures Delivery(st, entry, now, max, bump).(unreadCount := st.unreadCount)
            == Logged(st, entry, now, max)
    ensures st.isPaused ==> Delivery(st, entry, now, max, bump).logs == st.logs
  {
  }

  /** `addLog(entry)` on `s`, then `incrementUnread()` when `bump`. */
  method Deliver(s: TopicSession, entry: LogEntry, now: int, bump: bool)
    modifies s
    ensures s.State() == Delivery(old(s.State()), entry, now, s.maxLogs, bump)
  {
    s.AddLog(entry, now);
    if bump {
      s.IncrementUnread();
    }
  }

  /** The loop over a list of sessions shared by `routeMessage` and
      `broadcastSystemMessage`: `targets` are the sessions of `m` under `ids`, in that
      order; each gets `addLog(entry)`, and, when `bump`, every one but the active
      session also gets `incrementUnread()`. The sessions of `m` under other ids are
      left alone. */
  method DeliverEach(m: map<Id, TopicSession>, ghost ids: seq<Id>, targets: seq<TopicSession>,
                     entry: LogEntry, now: int, bump: bool, active: Option<Id>)
    requires Distinct(ids) && |targets| == |ids|
    requires forall j :: 0 <= j < |ids| ==> ids[j] in m && targets[j] == m[ids[j]]
    requires forall k :: k in m ==> m[k].id == k
    modifies set s | s in targets
    ensures forall k :: k in m ==>
              m[k].State() == if k in ids
                              then Delivery(old(m[k].State()), entry, now, m[k].maxLogs, bump && Some(k) != active)
                              else old(m[k].State())
  {
    ghost var before := map j | 0 <= j < |targets| :: targets[j].State();
    var i := 0;
    while i < |targets|
      invariant 0 <= i <= |targets|
      invariant forall j :: 0 <= j < i ==>
                  targets[j].State() == Delivery(before[j], entry, now, targets[j].maxLogs,
                                                 bump && Some(targets[j].id) != active)
      invariant forall j :: i <= j < |targets| ==> targets[j].State() == before[j]
    {
      assert forall j :: 0 <= j < |targets| && j != i ==> targets[j] != targets[i];
      Deliver(targets[i], entry, now, bump && Some(targets[i].id) != active);
      i := i + 1;
    }
    forall k | k in m && k in ids
      ensures m[k].State() == Delivery(old(m[k].State()), entry, now, m[k].maxLogs, bump && Some(k) != active)
    {
      var j :| 0 <= j < |ids| && ids[j] == k;
    }
    forall k | k in m && k !in ids
      ensures m[k].State() == old(m[k].State())
    {
      assert forall j :: 0 <= j < |targets| ==> targets[j].id != k;
    }
  }

  /** The session, if any, that `addSentMessage(topic, ..)` writes to: the first one
      in map order whose filter is exactly `topic`, else the active one. */
  function SentTarget(r: Registry, topic: string): (t: Option<Id>)
    requires forall k :: k in r.keys ==> k in r.sessions
    ensures t.Some? ==> t.value in r.sessions
    ensures t.Some? && r.sessions[t.value].topic != topic ==>
              t == r.active && forall k :: k in r.keys ==> r.sessions[k].topic != topic
    ensures t.None? ==> (r.active.None? || r.active.value !in r.sessions)
    ensures (exists k :: k in r.keys && r.sessions[k].topic == topic) ==>
              t == FirstWithTopic(r.keys, r.sessions, topic) && t.Some? && r.sessions[t.value].topic == topic
  {
    match FirstWithTopic(r.keys, r.sessions, topic)
    case Some(k) => Some(k)
    case None => if r.active.Some? && r.active.value in r.sessions then r.active else None
  }

  /** The session, if any, that `addSystemMessage(message, sessionId)` writes to: the
      named one when an id is given (none if it is unknown, with no fallback), else the
      active one. */
  function SystemTarget(r: Registry, sessionId: Option<Id>): (t: Option<Id>)
    ensures t.Some? ==> t.value in r.sessions
    ensures sessionId.Some? ==> t == (if sessionId.value in r.sessions then sessionId else None)
    ensures sessionId.None? ==> t == (if r.active.Some? && r.active.value in r.sessions then r.active else None)
  {
    var wanted := if sessionId.Some? then sessionId else r.active;
    if wanted.Some? && wanted.value in r.sessions then wanted else None
  }

  class TopicRouter {
    const manager: TopicManager

    /** `new TopicRouter(manager)`. */
    constructor(manager: TopicManager)
      ensures this.manager == manager
    {
      this.manager := manager;
    }

    /** `routeMessage(topic, payload)`: the sessions whose filter matches, in map order,
        are returned; each gets the inbound line once, and its unread counter goes up
        unless it is the active session, even when it is paused and the line is
        dropped. Every other session, and the registry itself, is left alone. */
    method RouteMessage(topic: string, payload: string, now: int) returns (matched: seq<TopicSession>)
      requires manager.Valid()
      modifies manager.sessions.Values
      ensures matched == Lookup(MatchingIds(manager.keys, manager.sessions, topic), manager.sessions)
      ensures manager.State() == old(manager.State())
      ensures forall k :: k in manager.sessions ==>
                manager.sessions[k].State() ==
                  if TopicMatch.MatchTopic(manager.sessions[k].topic, topic)
                  then Delivery(old(manager.sessions[k].State()), RxEntry(topic, payload), now,
                                manager.sessions[k].maxLogs, Some(k) != manager.activeTopicId)
                  else old(manager.sessions[k].State())
    {
      var m := manager.sessions;
      var active := manager.activeTopicId;
      ghost var ids := MatchingIds(manager.keys, m, topic);
      matched := manager.FindMatchingSessions(topic);
      MatchingIdsDistinct(manager.keys, m, topic);
      var entry := RxEntry(topic, payload);
      DeliverEach(m, ids, matched, entry, now, true, active);
      forall k | k in m
        ensures k in ids <==> TopicMatch.MatchTopic(m[k].topic, topic)
      {
        MatchingIdsMember(manager.keys, m, topic, k);
      }
    }

    /** `addSentMessage(topic, message)`: the outbound line goes to the session whose
        filter is that topic, else to the active session, else nowhere. No unread
        counter moves and no other session changes. */
    method AddSentMessage(topic: string, message: string, now: int)
      requires manager.Valid()
      modifies manager.sessions.Values
      ensures manager.State() == old(manager.State())
      ensures forall k :: k in manager.sessions ==>
                manager.sessions[k].State() ==
                  if Some(k) == SentTarget(manager.State(), topic)
                  then Logged(old(manager.sessions[k].State()), TxEntry(topic, message), now, manager.sessions[k].maxLogs)
                  else old(manager.sessions[k].State())
    {
      var entry := TxEntry(topic, message);
      var found := manager.FindByTopic(topic);
      if found.Some? {
        found.value.AddLog(entry, now);
      } else {
        var active := manager.ActiveSession();
        if active.Some? {
          active.value.AddLog(entry, now);
        }
      }
    }

    /** `addSystemMessage(message, sessionId)`: the system line goes to the named
        session, or to the active one when no id is given. An unknown id, or no active
        session, changes nothing. */
    method AddSystemMessage(message: string, sessionId: Option<Id>, now: int)
      requires manager.Valid()
      modifies manager.sessions.Values
      ensures manager.State() == old(manager.State())
      ensures forall k :: k in manager.sessions ==>
                manager.sessions[k].State() ==
                  if Some(k) == SystemTarget(manager.State(), sessionId)
                  then Logged(old(manager.sessions[k].State()), SysEntry(message), now, manager.sessions[k].maxLogs)
                  else old(manager.sessions[k].State())
    {
      var entry := SysEntry(message);
      if sessionId.Some? {
        if sessionId.value in manager.sessions {
          manager.sessions[sessionId.value].AddLog(entry, now);
        }
      } else {
        var active := manager.ActiveSession();
        if active.Some? {
          active.value.AddLog(entry, now);
        }
      }
    }

    /** `broadcastSystemMessage(message)`: every session gets the system line once. */
    method BroadcastSystemMessage(message: string, now: int)
      requires manager.Valid()
      modifies manager.sessions.Values
      ensures manager.State() == old(manager.State())
      ensures forall k :: k in manager.sessions ==>
                manager.sessions[k].State() ==
                  Logged(old(manager.sessions[k].State()), SysEntry(message), now, manager.sessions[k].maxLogs)
    {
      var m := manager.sessions;
      var entry := SysEntry(message);
      DeliverEach(m, manager.keys, Lookup(manager.keys, m), entry, now, false, None);
    }
  }
}

=== FILE: topic_session.dfy ===
/** One subscribed topic: its settings, its bounded log buffer and its counters
    (`TopicSession` in src/modules/TopicManager.js). */
module Sessions {
  import opened Common

  /** Session ids. The source draws a random UUID string; the model uses naturals that
      the caller supplies fresh. */
  type Id = nat

  /** The three kinds of log line: received, sent and system. */
  datatype Kind = Rx | Tx | Sys

  /** One stored log line. The display time string and the per-entry random id are
      not modelled; `timestamp` is the time `addLog` stamps on the entry. */
  datatype LogEntry = LogEntry(kind: Kind, message: string, originalTopic: Option<string>, timestamp: int)

  /** A palette colour: the tab colour and its translucent background. */
  datatype Color = Color(value: string, bg: string)

  /** The six preset colours, in order. */
  const Palette: seq<Color> := [
    Color("#3b82f6", "rgba(59, 130, 246, 0.1)"),
    Color("#10b981", "rgba(16, 185, 129, 0.1)"),
    Color("#f59e0b", "rgba(245, 158, 11, 0.1)"),
    Color("#8b5cf6", "rgba(139, 92, 246, 0.1)"),
    Color("#ec4899", "rgba(236, 72, 153, 0.1)"),
    Color("#06b6d4", "rgba(6, 182, 212, 0.1)")
  ]

  /** The log bound used when the options give none. */
  const DefaultMaxLogs := 1000

  /** An options or configuration object: `None` is a key that is absent. */
  datatype SessionConfig = SessionConfig(
    id: Option<Id>,
    topic: Option<string>,
    displayName: Option<string>,
    qos: Option<int>,
    color: Option<string>,
    colorBg: Option<string>,
    maxLogs: Option<int>,
    created: Option<int>,
    autoScroll: Option<bool>,
    jsonFormat: Option<bool>,
    isPaused: Option<bool>)

  /** An options object with no keys at all. */
  const NoOptions := SessionConfig(None, None, None, None, None, None, None, None, None, None, None)

  /** `{...base, ...over}`: every key present in `over` replaces the one in `base`. */
  function Overlay(base: SessionConfig, over: SessionConfig): (r: SessionConfig)
    ensures over == NoOptions ==> r == base
    ensures base == NoOptions ==> r == over
  {
    SessionConfig(
      if over.id.Some? then over.id else base.id,
      if over.topic.Some? then over.topic else base.topic,
      if over.displayName.Some? then over.displayName else base.displayName,
      if over.qos.Some? then over.qos else base.qos,
      if over.color.Some? then over.color else base.color,
      if over.colorBg.Some? then over.colorBg else base.colorBg,
      if over.maxLogs.Some? then over.maxLogs else base.maxLogs,
      if over.created.Some? then over.created else base.created,
      if over.autoScroll.Some? then over.autoScroll else base.autoScroll,
      if over.jsonFormat.Some? then over.jsonFormat else base.jsonFormat,
      if over.isPaused.Some? then over.isPaused else base.isPaused)
  }

  /** `s || d` on an optional string: the empty string is falsy too. */
  function OrElse(s: Option<string>, d: string): string {
    if s.Some? && s.value != "" then s.value else d
  }

  /** The settings a session fixes when it is built and never changes afterwards. */
  datatype Profile = Profile(
    id: Id, topic: string, displayName: string, qos: int,
    color: string, colorBg: string, maxLogs: int, created: int)

  /** What the constructor guarantees of every profile: the colours are set, a display
      name is missing only when the topic is, and the creation time is truthy. */
  predicate WellFormed(p: Profile) {
    p.color != "" && p.colorBg != "" && (p.displayName == "" ==> p.topic == "") && p.created != 0
  }

  /** The constructor's defaulting rules: id from the options or fresh, topic or empty,
      display name falling back to the topic, qos 0, the first palette colour,
      1000 log lines, and the current time as creation time. */
  function Normalized(config: SessionConfig, freshId: Id, now: int): (p: Profile)
    ensures now != 0 ==> WellFormed(p)
    ensures config.topic.Some? && config.topic.value != "" && OrElse(config.displayName, "") == "" ==>
              p.displayName == p.topic
  {
    Profile(
      config.id.GetOr(freshId),
      OrElse(config.topic, ""),
      OrElse(config.displayName, OrElse(config.topic, "")),
      config.qos.GetOr(0),
      OrElse(config.color, Palette[0].value),
      OrElse(config.colorBg, Palette[0].bg),
      config.maxLogs.GetOr(DefaultMaxLogs),
      if config.created.Some? && config.created.value != 0 then config.created.value else now)
  }

  /** The persisted form of a profile together with the three view flags. */
  function ConfigOf(p: Profile, autoScroll: bool, jsonFormat: bool, isPaused: bool): SessionConfig {
    SessionConfig(Some(p.id), Some(p.topic), Some(p.displayName), Some(p.qos),
                  Some(p.color), Some(p.colorBg), Some(p.maxLogs), Some(p.created),
                  Some(autoScroll), Some(jsonFormat), Some(isPaused))
  }

  /** Saving a session and building one from the saved form restores its whole profile,
      whatever fresh id and clock the rebuild is given. */
  lemma ConfigRoundTrip(p: Profile, autoScroll: bool, jsonFormat: bool, isPaused: bool, freshId: Id, now: int)
    requires WellFormed(p)
    ensures Normalized(ConfigOf(p, autoScroll, jsonFormat, isPaused), freshId, now) == p
  {
  }

  /** The saved view flags play no part in rebuilding: `fromConfig` ignores them. */
  lemma FlagsIgnoredOnRebuild(c: SessionConfig, d: SessionConfig, freshId: Id, now: int)
    requires c.(autoScroll := None, jsonFormat := None, isPaused := None) ==
             d.(autoScroll := None, jsonFormat := None, isPaused := None)
    ensures Normalized(c, freshId, now) == Normalized(d, freshId, now)
  {
  }

  /** `Array.prototype.slice(start)`: a negative start counts from the end. */
  function SliceFrom<T>(s: seq<T>, start: int): (r: seq<T>)
    ensures |r| <= |s|
    ensures |r| == if start < 0 then (if -start < |s| then -start else |s|)
                   else (if start < |s| then |s| - start else 0)
    ensures r == s[|s| - |r|..]
  {
    var b := if start < 0 then (if |s| + start < 0 then 0 else |s| + start)
             else (if start < |s| then start else |s|);
    s[b..]
  }

  /** The log trim exactly as the source writes it: when there are more than `max`
      lines, keep `slice(-max)`. */
  function KeepNewestAsWritten<T>(s: seq<T>, max: int): (r: seq<T>)
    ensures |r| <= |s|
    ensures r == s[|s| - |r|..]
  {
    if |s| > max then SliceFrom(s, -max) else s
  }

  /** `slice(-0)` is `slice(0)`: with a bound of 0 the trim keeps every line. */
  lemma KeepNewestAsWrittenZeroBound<T>(x: T)
    ensures |KeepNewestAsWritten([x], 0)| == 1
  {
    assert SliceFrom([x], -0) == [x][0..];
  }

  /** The largest number of lines a session with this bound may hold. */
  function Capacity(max: int): nat {
    if max > 0 then max else 0
  }

  /** The intended trim: the newest `max` lines, or none when `max` is not positive. */
  function KeepNewest<T>(s: seq<T>, max: int): (r: seq<T>)
    ensures |r| <= Capacity(max)
    ensures |r| == if |s| <= Capacity(max) then |s| else Capacity(max)
    ensures r == s[|s| - |r|..]
  {
    if |s| > max then s[|s| - Capacity(max)..] else s
  }

  /** For every positive bound the source's trim and the intended one agree. */
  lemma KeepNewestAgrees<T>(s: seq<T>, max: int)
    requires max > 0
    ensures KeepNewestAsWritten(s, max) == KeepNewest(s, max)
  {
  }

  /** Appending a line and trimming keeps that line as the newest, unless the bound
      allows no lines at all. */
  lemma KeepNewestKeepsLast<T>(s: seq<T>, x: T, max: int)
    requires max > 0
    ensures var r := KeepNewest(s + [x], max); |r| > 0 && r[|r| - 1] == x
  {
  }

  /** ASCII lower-casing of one character. */
  function LowerChar(c: char): (d: char)
    ensures 'A' <= c <= 'Z' ==> d != c && 'a' <= d <= 'z'
    ensures !('A' <= c <= 'Z') ==> d == c
  {
    if 'A' <= c <= 'Z' then (c as int - 'A' as int + 'a' as int) as char else c
  }

  /** `toLowerCase()`, restricted to ASCII letters. */
  function Lower(s: string): (r: string)
    ensures |r| == |s|
    ensures forall i :: 0 <= i < |s| ==> r[i] == LowerChar(s[i])
  {
    if s == [] then [] else [LowerChar(s[0])] + Lower(s[1..])
  }

  /** `s.includes(sub)`: `sub` occurs somewhere in `s`. */
  predicate Contains(s: string, sub: string)
    decreases |s|
  {
    sub <= s || (s != [] && Contains(s[1..], sub))
  }

  /** `sub` starts at position `i` of `s`. */
  predicate OccursAt(s: string, sub: string, i: int) {
    0 <= i <= |s| - |sub| && s[i..i + |sub|] == sub
  }

  /** Dropping the first character moves every occurrence one place to the left. */
  lemma OccursShift(s: string, sub: string, i: nat)
    requires s != []
    ensures OccursAt(s, sub, i + 1) <==> OccursAt(s[1..], sub, i)
  {
    if i + 1 <= |s| - |sub| {
      assert s[1..][i..i + |sub|] == s[i + 1..i + 1 + |sub|];
    }
  }

  /** `Contains` means what it says: there is a position where `sub` starts. */
  lemma {:induction false} ContainsIff(s: string, sub: string)
    ensures Contains(s, sub) <==> exists i :: OccursAt(s, sub, i)
    decreases |s|
  {
    if sub <= s {
      assert OccursAt(s, sub, 0);
    } else if s == [] {
    } else {
      ContainsIff(s[1..], sub);
      if exists i :: OccursAt(s, sub, i) {
        var i :| OccursAt(s, sub, i);
        assert i != 0;
        OccursShift(s, sub, i - 1);
      }
      if exists i :: OccursAt(s[1..], sub, i) {
        var i :| OccursAt(s[1..], sub, i);
        OccursShift(s, sub, i);
      }
    }
  }

  /** Whether a line passes a non-empty filter: a case-insensitive substring test. */
  predicate Passes(e: LogEntry, filter: string)
    ensures filter == "" ==> Passes(e, filter)
  {
    Contains(Lower(e.message), Lower(filter))
  }

  /** The lines that pass the filter, in their original order. */
  function FilterLogs(logs: seq<LogEntry>, filter: string): (r: seq<LogEntry>)
    ensures |r| <= |logs|
    ensures forall i :: 0 <= i < |r| ==> r[i] in logs && Passes(r[i], filter)
    ensures forall i :: 0 <= i < |logs| && Passes(logs[i], filter) ==> logs[i] in r
  {
    if logs == [] then []
    else if Passes(logs[0], filter) then [logs[0]] + FilterLogs(logs[1..], filter)
    else FilterLogs(logs[1..], filter)
  }

  /** Filtering commutes with concatenation, so the survivors keep their order. */
  lemma {:induction false} FilterLogsAppend(a: seq<LogEntry>, b: seq<LogEntry>, filter: string)
    ensures FilterLogs(a + b, filter) == FilterLogs(a, filter) + FilterLogs(b, filter)
  {
    if a == [] {
      assert a + b == b;
    } else {
      assert (a + b)[1..] == a[1..] + b;
      FilterLogsAppend(a[1..], b, filter);
    }
  }

  /** Filtering twice by the same text is filtering once. */
  lemma {:induction false} FilterLogsIdempotent(logs: seq<LogEntry>, filter: string)
    ensures FilterLogs(FilterLogs(logs, filter), filter) == FilterLogs(logs, filter)
  {
    if logs != [] {
      FilterLogsIdempotent(logs[1..], filter);
    }
  }

  /** The filtered view: every line when the filter is empty, else the passing lines. */
  function FilteredView(logs: seq<LogEntry>, filter: string): (r: seq<LogEntry>)
    ensures filter == "" ==> r == logs
    ensures filter != "" ==> r == FilterLogs(logs, filter)
  {
    if filter == "" then logs else FilterLogs(logs, filter)
  }

  /** A letter's case never decides whether a line passes. */
  lemma PassesIgnoresCase(e: LogEntry, filter: string)
    ensures Passes(e, filter) == Passes(e.(message := Lower(e.message)), Lower(filter))
  {
    LowerIdempotent(e.message);
    LowerIdempotent(filter);
  }

  /** Lower-casing twice is lower-casing once. */
  lemma LowerIdempotent(s: string)
    ensures Lower(Lower(s)) == Lower(s)
  {
    assert forall i :: 0 <= i < |s| ==> LowerChar(LowerChar(s[i])) == LowerChar(s[i]);
  }

  /** Everything about a session that its methods change: the buffer, the flags, the
      counters, the last message time and the filter text. */
  datatype SessionState = SessionState(
    logs: seq<LogEntry>,
    isSubscribed: bool,
    isPaused: bool,
    isMuted: bool,
    autoScroll: bool,
    jsonFormat: bool,
    unreadCount: nat,
    totalReceived: nat,
    lastMessage: Option<int>,
    filter: string)

  /** The state of a session just built: no lines, unsubscribed, running, unmuted,
      scrolling and formatting on, counters at zero, no message yet, no filter. */
  const Fresh := SessionState([], false, false, false, true, true, 0, 0, None, "")

  /** The buffer holds no more lines than the bound allows. */
  predicate Bounded(st: SessionState, max: int) {
    |st.logs| <= Capacity(max)
  }

  /** The state after `addLog(entry)` at time `now` with bound `max`: nothing when
      paused; otherwise the stamped entry appended and trimmed, one more line counted,
      and `now` recorded as the last message time. */
  function Logged(st: SessionState, entry: LogEntry, now: int, max: int): (r: SessionState)
    ensures Bounded(st, max) ==> Bounded(r, max)
    ensures r.totalReceived == st.totalReceived + (if st.isPaused then 0 else 1)
    ensures r.unreadCount == st.unreadCount && r.isPaused == st.isPaused && r.isSubscribed == st.isSubscribed
    ensures r.filter == st.filter
  {
    if st.isPaused then st
    else st.(logs := KeepNewest(st.logs + [entry.(timestamp := now)], max),
             totalReceived := st.totalReceived + 1,
             lastMessage := Some(now))
  }

  /** `addLog` on a paused session changes nothing. On a running one the stamped
      entry is the newest line held (when the bound allows any line), exactly one more
      line is counted, the buffer is within its bound, and no flag, filter or unread
      counter moves. */
  lemma LoggedEffect(st: SessionState, entry: LogEntry, now: int, max: int)
    ensures st.isPaused ==> Logged(st, entry, now, max) == st
    ensures !st.isPaused ==>
              var r := Logged(st, entry, now, max);
              Bounded(r, max) && r.totalReceived == st.totalReceived + 1 && r.lastMessage == Some(now)
              && (max > 0 ==> r.logs[|r.logs| - 1] == entry.(timestamp := now))
              && r.(logs := st.logs, totalReceived := st.totalReceived, lastMessage := st.lastMessage) == st
  {
    if !st.isPaused && max > 0 {
      KeepNewestKeepsLast(st.logs, entry.(timestamp := now), max);
    }
  }

  /** `addLog` keeps a buffer within its bound. */
  lemma LoggedBounded(st: SessionState, entry: LogEntry, now: int, max: int)
    requires Bounded(st, max)
    ensures Bounded(Logged(st, entry, now, max), max)
  {
  }

  class TopicSession {
    const id: Id
    const topic: string
    const displayName: string
    const qos: int
    const color: string
    const colorBg: string
    const maxLogs: int
    const created: int

    var logs: seq<LogEntry>
    var isSubscribed: bool
    var isPaused: bool
    var isMuted: bool
    var autoScroll: bool
    var jsonFormat: bool
    var unreadCount: nat
    var totalReceived: nat
    var lastMessage: Option<int>
    var filter: string

    /** The settings fixed at construction, as one value. */
    function Settings(): Profile {
      Profile(id, topic, displayName, qos, color, colorBg, maxLogs, created)
    }

    /** The changing fields, as one value. */
    function State(): SessionState
      reads this
    {
      SessionState(logs, isSubscribed, isPaused, isMuted, autoScroll, jsonFormat,
                   unreadCount, totalReceived, lastMessage, filter)
    }

    /** The settings are those a constructor can produce. They never change, so this
        depends on no mutable field. */
    predicate Valid() {
      WellFormed(Settings())
    }

    /** The state of a session just built from `options` at time `now`. */
    ghost predicate Initial(options: SessionConfig, freshId: Id, now: int)
      reads this
    {
      Settings() == Normalized(options, freshId, now) && State() == Fresh
    }

    /** `new TopicSession(options)`: settings from the defaulting rules and the fresh
        state. The saved `isPaused`, `autoScroll` and `jsonFormat` are not read. */
    constructor(options: SessionConfig, freshId: Id, now: int)
      requires now != 0
      ensures Valid() && Initial(options, freshId, now)
    {
      var p := Normalized(options, freshId, now);
      id := p.id;
      topic := p.topic;
      displayName := p.displayName;
      qos := p.qos;
      color := p.color;
      colorBg := p.colorBg;
      maxLogs := p.maxLogs;
      created := p.created;
      logs := [];
      isSubscribed := false;
      isPaused := false;
      isMuted := false;
      autoScroll := true;
      jsonFormat := true;
      unreadCount := 0;
      totalReceived := 0;
      lastMessage := None;
      filter := "";
    }

    /** `toConfig()`: the settings and the three view flags, without the logs. Building
        a session from it restores the same settings. */
    function ToConfig(): (c: SessionConfig)
      reads this
      requires Valid()
      ensures forall freshId: Id, now :: Normalized(c, freshId, now) == Settings()
      ensures c.isPaused == Some(isPaused) && c.autoScroll == Some(autoScroll) && c.jsonFormat == Some(jsonFormat)
    {
      var c := ConfigOf(Settings(), autoScroll, jsonFormat, isPaused);
      assert forall freshId: Id, now :: Normalized(c, freshId, now) == Settings() by {
        forall freshId: Id, now ensures Normalized(c, freshId, now) == Settings() {
          ConfigRoundTrip(Settings(), autoScroll, jsonFormat, isPaused, freshId, now);
        }
      }
      c
    }

    /** `getFilteredLogs()`: every line when there is no filter, otherwise the lines
        whose message contains the filter text ignoring case, in order. */
    function GetFilteredLogs(): (r: seq<LogEntry>)
      reads this
      ensures filter == "" ==> r == logs
      ensures forall i :: 0 <= i < |r| ==> r[i] in logs && (filter != "" ==> Passes(r[i], filter))
      ensures filter != "" ==> forall i :: 0 <= i < |logs| && Passes(logs[i], filter) ==> logs[i] in r
    {
      FilteredView(logs, filter)
    }

    /** `addLog(entry)`, stamped at time `now`. */
    method AddLog(entry: LogEntry, now: int)
      modifies this
      ensures State() == Logged(old(State()), entry, now, maxLogs)
    {
      if isPaused {
        return;
      }
      logs := KeepNewest(logs + [entry.(timestamp := now)], maxLogs);
      totalReceived := totalReceived + 1;
      lastMessage := Some(now);
    }

    /** `clearLogs()`: empties the buffer and the unread counter. */
    method ClearLogs()
      modifies this
      ensures State() == old(State()).(logs := [], unreadCount := 0)
    {
      logs := [];
      unreadCount := 0;
    }

    /** `incrementUnread()`. */
    method IncrementUnread()
      modifies this
      ensures State() == old(State()).(unreadCount := old(unreadCount) + 1)
    {
      unreadCount := unreadCount + 1;
    }

    /** `resetUnread()`. */
    method ResetUnread()
      modifies this
      ensures State() == old(State()).(unreadCount := 0)
    {
      unreadCount := 0;
    }
  }

  /** Trimming only ever drops the oldest lines: what is kept is the tail of what
      was there plus the new line. */
  lemma TrimDropsOldest(old_logs: seq<LogEntry>, e: LogEntry, max: int)
    ensures var logs := KeepNewest(old_logs + [e], max);
            logs == (old_logs + [e])[|old_logs| + 1 - |logs|..]
  {
  }
}
